=== FILE: README.md ===
# ASCII-Draw editor core in Dafny

ASCII-Draw is a browser editor for character art. A page holds a `rows × cols`
grid of one-character tiles, a cursor (the focused tile) and an anchor, a set
of selected tiles, an undo history of at most 50 whole-grid copies, a store of
named branches of saved snapshots, and a playback loop that shows a branch's
snapshots one after another. This project models that state engine as one
immutable `Editor.Session` record and the handlers of `main.js` as pure
transitions on it:

- `Editor`: the session and its invariant `Valid` (every cell, the cursor,
  the anchor and every selected cell inside the grid; a history of at most 50
  grids of the current size; a well-formed branch store). It also holds focus,
  selection, `saveState`/`undo`, typing, Backspace, the arrow keys, clear, cut,
  delete and the snapshot operations.
- `Selection`: rectangles, toggling and bounding boxes.
- `History`: the bounded undo stack.
- `Branches`: the branch store.
- `Mouse`: the pointer handlers and the drag-move of a selection.
- `Clipboard`: copy text, preview text and both paste loops.
- `Playback`: the playback state machine.
- `Keys`: the `keydown` dispatcher.
- `Text`, `Cells` and `Common`: helpers. `Text` covers JavaScript's `\s`, trimming, joining and splitting lines; `Cells` covers grid cells and their normalisation; `Common` holds `Option`/`Result`, min/max and in-grid positions.

Things the program reads from the page or the browser are parameters:

- the pasted text;
- the hovered tile on mouse-up;
- the branch name typed into the prompt;
- the snapshot timestamp;
- the loop checkbox;
- the parsed interval field (`Option<int>`, `None` for NaN).

A `confirm` dialog is taken as accepted. The pending playback timeout is the field `PlayState.timer`, holding its delay. `Playback.Tick` is that timeout firing.

## Model

| member | source | states |
|---|---|---|
| Text.TrimEnd | main.js:388-389 | `line.replace(/\s+$/, '')`: the result is a prefix of the line, everything cut off is JavaScript white space, and the result does not end in white space |
| Text.SplitJoin | main.js:386-392 | splitting the `\n`-joined lines of a box at `\n` gives the lines back when no line contains `\n` |
| Text.JoinNewlines | main.js:391 | joining `n` newline-free lines puts exactly `n - 1` newlines in the text (no trailing newline) |
| Cells.SetCell | main.js:805 | writing one tile changes exactly that cell and keeps the grid's shape |
| Cells.Fill | main.js:398-402 | writing a character into a set of tiles changes exactly those cells |
| Cells.NormalizeToStrings | main.js:234-278 | a grid stored as one-character strings and read back through the `len>0 ? s[0] : ' '` rule is the same grid |
| Selection.Region | main.js:352-358 | the cells of an inclusive box are exactly the positions inside it |
| Selection.RectCornerOrder | main.js:347-350 | the highlighted rectangle does not depend on the order of its corners |
| Selection.Toggle | main.js:457-463 | Ctrl-click adds the cell when it was unselected and removes it when it was selected; no other cell changes |
| Selection.ToggleTwice | main.js:457-463 | toggling the same cell twice restores the selection |
| Selection.SelectionBounds | main.js:361-376 | no bounds for an empty selection; otherwise a box containing every selected cell, with each of its four sides touched by a selected cell |
| Selection.BoundsUnique | main.js:361-376 | any box that contains the selection and whose four sides are each touched by a selected cell is the box returned |
| Selection.RectBounds | main.js:344-376 | the bounds of a highlighted rectangle are the min/max of its corners, whatever their order |
| Selection.BoundsCover | main.js:361-376 | a selection lies inside its bounding box |
| History.Push | main.js:140-141 | a push keeps at most 50 entries, appends the new entry last, and drops the oldest one when the history was full |
| History.PushAllKeepsNewest | main.js:140-141 | after any number of pushes the history is the newest 50 entries of everything pushed, in order |
| Branches.CreateBranch | main.js:165-174 | a blank name changes nothing; otherwise the name gets an empty list (even when it existed), becomes active, and every other branch is unchanged |
| Branches.SwitchBranch | main.js:176-181 | only the active name changes, and it is not checked against the store |
| Branches.DeleteBranch | main.js:183-198 | "main" is refused; any other name is removed, the other branches are unchanged, and the active branch falls back to "main" when it was the one deleted |
| Branches.MainIsProtected | main.js:184-187 | deleting "main" is always refused |
| Branches.CreateThenDelete | main.js:165-198 | creating a fresh branch and deleting it restores the branch map |
| Branches.AppendSnapshot | main.js:246-251 | the active list gains the snapshot at its end; the other lists are unchanged; a missing active list is an error |
| Branches.Splice | main.js:281 | `splice(index, 1)` with JavaScript's index rules: a negative index counts from the end, and an index past the end removes nothing |
| Branches.SpliceUndoesAppend | main.js:280-284 | deleting the snapshot just saved, by its index or by -1, restores the list |
| Branches.DeleteSnapshot | main.js:280-284 | the active list is spliced; the other lists are unchanged |
| Branches.MainSurvives | main.js:165-198 | no branch or snapshot operation removes "main" |
| Editor.Focus | main.js:566-576 | an in-grid target becomes the cursor (and the anchor on request); an out-of-grid target changes nothing |
| Editor.ClearSelection | main.js:334-342 | the selection and both gesture corners are emptied, nothing else changes |
| Editor.Highlight | main.js:344-359 | the selection becomes exactly the cells between the min and max row and column of the two corners; the gesture corners are forgotten |
| Editor.SelectArea | main.js:449-452 | the rectangle is selected, its bounds are the corners' min/max, and the cursor moves to the second corner |
| Editor.CreateGrid | main.js:407-447 | `createGrid` with the selection cleared before the tiles are dropped: a blank grid of the new size, no history, nothing selected, cursor and anchor at (0, 0), for every session |
| Editor.CreateGridAsWritten | main.js:407-418 | as written, emptying `tiles` before `clearSelection` loses the grid exactly when a cell is selected; with nothing selected it is `Editor.CreateGrid` |
| Editor.Init | main.js:829-830 | the page at start-up with nothing persisted: the given size, no history, nothing selected, an empty main branch, not playing |
| Editor.SaveState | main.js:130-143 | the current grid and cursor are pushed onto the bounded history; nothing else changes |
| Editor.Undo | main.js:145-159 | an empty history changes nothing; otherwise the newest entry's grid and cursor come back, the history loses exactly that entry, and nothing else changes |
| Editor.UndoRevertsEdit | main.js:130-159 | any edit that saved first is reverted by one undo, grid and cursor; the history is restored unless it was full |
| Editor.AdvanceCursor | main.js:578-589 | the cursor moves to the next cell in reading order and stays on the last cell of the grid |
| Editor.Retreat | main.js:816-820 | Backspace's step is one cell back in reading order |
| Editor.Type | main.js:803-810 | the typed character lands on the cursor cell and no other cell changes; the cursor advances in reading order with the anchor; the selection and the gesture corners are cleared; the state is saved; the branches and playback are untouched |
| Editor.Backspace | main.js:813-824 | the cursor cell is blanked and no other cell changes; the cursor steps back one cell in reading order with the anchor, staying at (0, 0); the selection and the gesture corners are cleared; the state is saved; the branches and playback are untouched |
| Editor.MoveCursor | main.js:760-800 | an arrow step with Shift selects the rectangle from the anchor to the new cell; without Shift it clears the selection and moves the anchor along |
| Editor.Arrow | main.js:760-800 | an arrow key moves one cell only when the neighbour is in the grid and otherwise changes nothing; grid and history are untouched |
| Editor.ClearGrid | main.js:657-662 | every cell becomes blank, the cursor and the anchor go to (0, 0), and the state is saved; nothing else changes (the selection, the gesture, the branches and playback stay) |
| Editor.Cut | main.js:396-405 | exactly the selected cells are blanked (not the rest of the bounding box); the selection stays; the state is saved |
| Editor.DeleteSelection | main.js:730-739 | exactly the selected cells are blanked and the selection and the gesture corners are cleared; the state is saved; nothing else changes |
| Editor.SaveGridState | main.js:234-255 | the current grid is appended to the active branch; nothing else changes; a missing active list is an error |
| Editor.WriteSnapshot | main.js:264-276 | a snapshot of the current size is written cell by cell through normalisation after saving the state, and the cursor goes to (0, 0) |
| Editor.Loaded | main.js:257-278 | loading a snapshot gives its size and its normalised cells with the cursor at (0, 0); a different size first recreates the grid, emptying history and selection, also when a cell was selected (the corrected `createGrid`) |
| Editor.LoadGridState | main.js:257-278 | a missing active list or an index outside it is an error that changes nothing; otherwise the indexed snapshot is loaded, whatever is selected (with the corrected `createGrid`) |
| Editor.LoadGridStateAsWritten | main.js:257-265 | as written, a snapshot of another size loaded while a cell is selected loses the grid; every other load agrees with `Editor.LoadGridState`, error for error |
| Editor.SaveThenLoad | main.js:234-278 | loading the snapshot just saved restores the grid exactly |
| Editor.DeleteGridState | main.js:280-284 | only the active branch's list is spliced; the grid is untouched |
| Mouse.MouseDown | main.js:454-487 | Ctrl toggles the cell; Shift selects from the anchor; a press on a selected cell starts a drag and changes nothing else; any other press selects just the cell, moves cursor and anchor there, and (as written) leaves no start corner |
| Mouse.MouseEnter | main.js:489-496 | while selecting, the end corner is recorded, and the rectangle from the start corner is highlighted only when a start corner exists |
| Mouse.MouseEnterFixed | main.js:489-496 | corrected: while selecting with the start corner kept, the selection becomes the rectangle from that corner to the entered cell; when not selecting nothing changes |
| Mouse.DragSelectAsWrittenIgnoresDrag | main.js:478-493 | as written, pressing a cell and moving to another leaves only the pressed cell selected |
| Mouse.MouseDownFixed | main.js:478-486 | the corrected press keeps the start corner of the selection gesture |
| Mouse.DragSelectFixed | main.js:478-496 | with the start corner kept, press, drag and release select the rectangle from the pressed cell to the last cell entered |
| Mouse.DoubleClick | main.js:429-433 | a double click selects from the anchor to the tile and moves the cursor there |
| Mouse.Relocated | main.js:544-555 | the new selection is the bounding box moved by the offset, clipped to the grid |
| Mouse.MoveBlock | main.js:518-542 | each cell the moved box lands on takes the box's original content there; the other selected cells become blank; the remaining cells are unchanged |
| Mouse.DragMove | main.js:498-564 | the drag-move saves the state, moves the bounding box's contents by the offset from the pressed cell to the hovered cell, and selects the moved, clipped box |
| Mouse.DragInPlace | main.js:498-564 | dropping a selection where it was picked up changes no cell and turns the selection into its full bounding box |
| Mouse.MouseUp | main.js:498-564 | a drag with a selection and a hovered tile performs the move; every path ends the drag; an empty selection ends only the drag |
| Mouse.MouseUpTwiceMovesOnce | main.js:436-443 | the second call of the handler, from the document listener, moves nothing again |
| Mouse.ClickThenLoadLosesGrid | main.js:407-418 | as written, a click on the only cell of a 1 × 1 page selects it, and loading a saved 1 × 2 snapshot then loses the grid |
| Mouse.ClickThenLoadShowsSnapshot | main.js:407-418 | corrected, the same click and load show the 1 × 2 snapshot with nothing selected |
| Clipboard.BoxLines | main.js:380-393 | one line per row of the box, each the row's span with trailing white space removed |
| Clipboard.SelectionText | main.js:378-394 | an empty selection gives ""; otherwise the box's trimmed rows joined by `\n`, unselected cells in the box included |
| Clipboard.SelectionTextLines | main.js:378-394 | with no `\n` in the box, the text has `maxR - minR` newlines and splits back into the box's trimmed rows |
| Clipboard.CopyText | main.js:642-655 | the whole grid's trimmed rows joined by `\n` |
| Clipboard.CopyTextSelectsAll | main.js:642-655 | copying the grid is copying a selection of every cell |
| Clipboard.TerminatedJoin | main.js:854-859 | terminating every line with `\n` is joining the lines and adding one final `\n` |
| Clipboard.PreviewIsCopyText | main.js:848-859 | the preview text is the copied text plus one final `\n` |
| Clipboard.Place | main.js:691-706 | the paste loop keeps the grid's shape; it changes only cells to characters of the text other than `\n`, and never a row above the start |
| Clipboard.PlaceStops | main.js:691-693 | the loop stops once the row leaves the grid: started inside it, it ends at most one row below it; started below it, it writes nothing |
| Clipboard.WriteRow | main.js:697-699 | writing a line from a column changes exactly the cells it covers |
| Clipboard.PlaceAppend | main.js:691-706 | pasting two texts one after the other is pasting their concatenation |
| Clipboard.PlaceLine | main.js:697-705 | a newline-free line that fits is written in place, and the position ends after it or wraps |
| Clipboard.PlaceJoin | main.js:691-706 | with a `\n` after an automatic wrap absorbed, pasting lines joined by `\n` writes line k on row r + k |
| Clipboard.OverlayCells | main.js:691-706 | each cell of a pasted block holds its line's character where the line reaches, and the old cell elsewhere |
| Clipboard.FillSelection | main.js:672-686 | one character with a selection fills exactly the selected cells; the cursor and anchor go to the bounding box's bottom-right corner; the selection is cleared |
| Clipboard.PasteWith | main.js:664-711 | empty text changes nothing; one character with a selection fills it; otherwise the state is saved, the text is placed from the cursor, and the cursor and the anchor go where the text ended if that is a cell |
| Clipboard.PasteAtWith | main.js:591-640 | as the listener, but placement starts at the tile, which becomes the cursor and anchor |
| Clipboard.OverlayRestores | main.js:378-405 | the copied lines of a box with plain spaces, written back over the box with any of its cells blanked, restore the grid |
| Clipboard.CutPasteRoundTrip | main.js:664-711 | with a wrap absorbing the next `\n`, cutting any nonempty selection and pasting the text back at the top-left corner of its bounding box restores the grid, provided the cut text is not a single character (that fills the selection instead) and the box holds no whitespace other than ' ' (`PlainSpaces`, since the copy trims it) |
| Clipboard.CutPasteAsWrittenLosesRow | main.js:694-704 | as written, cutting 'A' above 'B' in a one-column grid and pasting it back leaves the second row blank |
| Clipboard.CutPasteKeepsRow | main.js:694-704 | with the wrap absorbing the `\n`, the same cut and paste restores both rows |
| Clipboard.PasteAtTileLines | main.js:614-634 | with the wrap absorbing the `\n`, `pasteAtTile` writes line k on row p.0 + k, with or without a selection unless the text is a single character (which fills the selection instead) |
| Clipboard.PasteAtTileAsWrittenLosesRow | main.js:614-634 | as written, `pasteAtTile` of "A\nB" at the top of a one-column grid loses 'B'; with the `\n` absorbed, 'B' lands below 'A' |
| Playback.Interval | main.js:60 | `parseInt(...) \|\| 500`: NaN and 0 give 500, any other number is kept |
| Playback.Stop | main.js:64-72 | not playing, no pending timeout, index 0, nothing else changed |
| Playback.StopIdempotent | main.js:64-72 | stopping twice is stopping once |
| Playback.PlayNext | main.js:44-62 | past the end without looping it stops; otherwise the snapshot at the index (0 when past the end) is loaded, the index becomes one more, and the next timeout is scheduled; a failed load schedules nothing (with the corrected `createGrid`) |
| Playback.Start | main.js:33-42 | with no snapshots nothing changes; otherwise playing starts, the first snapshot is shown at once and the index becomes 1 (with the corrected `createGrid`) |
| Playback.Toggle | main.js:25-31 | playing stops, stopped starts |
| Playback.Tick | main.js:61 | the pending timeout fires `playNextState`; with no timeout pending nothing happens |
| Playback.StopCancels | main.js:64-72 | after a stop no timeout is pending, so the timer changes nothing |
| Playback.PlaysInOrder | main.js:44-62 | without looping, each step shows snapshot `index` and increments the index by one; at the end it stops |
| Playback.LoopStartsOver | main.js:46-53 | with looping, the step after the end shows the first snapshot again |
| Keys.KeyDown | main.js:713-825 | every key keeps the invariant and the branch store; the clipboard is written exactly for Ctrl+C or Ctrl+X with a selection, with the selection's text |
| Keys.CopyChangesNothing | main.js:715-719 | Ctrl+C changes nothing, and copies only when something is selected |
| Keys.CutThenUndo | main.js:722-751 | Ctrl+X copies the selection's text and cuts; Ctrl+Z then restores the grid |
| Keys.TypeThenUndo | main.js:748-810 | a printable key without Ctrl writes itself at the cursor; Ctrl+Z then restores the grid and the cursor |
| Keys.EscapeClears | main.js:742-745 | Escape empties the selection and keeps grid, cursor and history |
| Keys.DeleteKey | main.js:730-739 | Delete with a selection blanks it and clears it; without one it does nothing |
| Keys.EnterKey | main.js:754-757 | Enter toggles playback, with or without Ctrl |
| Keys.ArrowKey | main.js:759-799 | an arrow key is the arrow move in its direction, extending the selection with Shift |
| Keys.BackspaceKey | main.js:813-824 | Backspace blanks the cursor cell and steps back |

## Left out

- DOM rendering: tile elements, the `highlighted`/`focused` classes, branch tabs, the saved-state list and its canvas previews. These are presentation only.
- Persistence: `localStorage`, `loadFromStorage`/`saveToStorage` and the 2-second `setInterval`. These are I/O and a timer.
- The asynchronous clipboard API. Pasted text is an input string, and copied text is `Keys.Outcome.copied`.
- Browser dialogs: `prompt` and `alert` become parameters; `confirm` is taken as accepted.
- The `setTimeout`/`clearTimeout` scheduling itself. Only the pending timeout and its delay are recorded.
- The preview toggle and the panel animation. This is UI chrome.
- Reading the size and interval fields with `parseInt`. The size is a parameter of `Editor.CreateGrid` and must be at least 1 × 1; a non-positive or NaN size in the field is not modelled.
- Editor.CreateGrid: requires a size of at least 1 × 1, because a zero-sized grid leaves no cell for the cursor to sit on.
- `e.key.length === 1` counts UTF-16 code units; the model counts Dafny characters.
- Characters are written into tiles as one character. A pasted or typed string of several UTF-16 units per character is not modelled.
- Clipboard.PasteTextAsWritten, Clipboard.PasteText, Clipboard.PasteAtTileAsWritten, Clipboard.PasteAtTile: these only fix the line-end rules of `Clipboard.PasteWith` and `Clipboard.PasteAtWith`, and carry no contract of their own.
- An exception thrown by the source ends the handler where it is thrown. The model keeps the state changes made before that point and nothing after:
  - `handleMouseEnter` with no start corner;
  - `loadGridState` with no active list or a bad index;
  - `saveGridState`/`deleteGridState` with no active list;
  - `createGrid` called by `loadGridState` with a cell selected. `Editor.LoadGridStateAsWritten` reports `GridLost` and keeps no session, because the page it leaves behind (new size, empty history, no tiles) makes every later handler throw. The rest of the model uses the corrected order.

## Findings

| source | as written | input that shows it | evidently intended | confidence | as-written member | corrected member |
|---|---|---|---|---|---|---|
| main.js:478-493 | a normal press calls `highlightSelection`, whose `clearSelection` sets `selectionStart` back to null; moving onto the next tile then reads `selectionStart.r` and throws, so dragging never extends the selection | press on an unselected (0, 0), move onto (1, 1) | the selection grows to the rectangle from the pressed cell to the cell under the pointer | high (not executed) | Mouse.DragSelectAsWrittenIgnoresDrag | Mouse.DragSelectFixed |
| main.js:694-704 | when a pasted line reaches the last column, the automatic wrap moves to the next row, and the `\n` that ends the line moves down a second row | in a 2 × 1 grid holding 'A' above 'B', select both, cut, and paste the cut text "A\nB" at (0, 0) | every line of the pasted text starts a row of its own, so a copied box pastes back as it was | medium (not executed) | Clipboard.CutPasteAsWrittenLosesRow | Clipboard.CutPasteRoundTrip |
| main.js:614-634 | `pasteAtTile` has the same double advance after a wrap | "A\nB" pasted at (0, 0) of an empty 2 × 1 grid | 'B' lands below 'A' | medium (not executed) | Clipboard.PasteAtTileAsWrittenLosesRow | Clipboard.PasteAtTileLines |
| main.js:407-418 | `createGrid` empties `tiles` and then calls `clearSelection`, which looks up `tiles[r][c]` for every selected cell and throws; the size and history are already reset and no tile is built, so every later handler fails | click the only cell of a 1 × 1 page, then load a saved 1 × 2 snapshot | the selection is cleared before the tiles are dropped, so the snapshot loads | high (not executed) | Mouse.ClickThenLoadLosesGrid | Editor.Loaded |

=== FILE: branches.dfy ===
/** The branch store: named, ordered lists of saved snapshots, one of which
    is active. The branch "main" always exists and cannot be deleted. */
module Branches {
  import opened Common
  import opened Text

  /** A saved grid: `{ grid, rows, cols, timestamp }`. Cells are kept as the
      strings the source persists; they are normalised when loaded. */
  datatype Snapshot = Snapshot(grid: seq<seq<string>>, rows: int, cols: int, timestamp: string)

  /** `branches` plus `activeBranch`. */
  datatype Store = Store(branches: map<string, seq<Snapshot>>, active: string)

  /** Why a branch or snapshot operation was not applied. */
  datatype BranchError = ProtectedBranch | UnknownBranch | IndexOutOfRange

  const Main: string := "main"

  /** A snapshot whose grid has the `rows × cols` shape it claims. */
  predicate WellFormed(sn: Snapshot) {
    && 1 <= sn.rows && 1 <= sn.cols
    && |sn.grid| == sn.rows
    && forall i | 0 <= i < |sn.grid| :: |sn.grid[i]| == sn.cols
  }

  predicate AllWellFormed(states: seq<Snapshot>) {
    forall k | 0 <= k < |states| :: WellFormed(states[k])
  }

  /** "main" exists and every stored snapshot is well formed. */
  predicate Valid(st: Store) {
    && Main in st.branches
    && forall name | name in st.branches :: AllWellFormed(st.branches[name])
  }

  /** `branches = { main: [] }`, active branch "main". */
  function Initial(): (st: Store)
    ensures Valid(st)
  {
    Store(map[Main := []], Main)
  }

  /** `branches[activeBranch] || []`: the active branch's snapshots. */
  function States(st: Store): seq<Snapshot> {
    if st.active in st.branches then st.branches[st.active] else []
  }

  /** `createNewBranch` with the typed name: a blank name changes nothing;
      otherwise the name gets an empty list (replacing any list it had) and
      becomes active. */
  function CreateBranch(st: Store, name: string): (r: Store)
    ensures IsBlank(name) ==> r == st
    ensures !IsBlank(name) ==>
              && r.active == name
              && r.branches.Keys == st.branches.Keys + {name}
              && r.branches[name] == []
              && forall k | k in st.branches && k != name :: r.branches[k] == st.branches[k]
    ensures Valid(st) ==> Valid(r)
  {
    if IsBlank(name) then st else Store(st.branches[name := []], name)
  }

  /** `switchBranch`: the active name changes; as in the source, the name is
      not checked against the store. */
  function SwitchBranch(st: Store, name: string): (r: Store)
    ensures r.branches == st.branches && r.active == name
    ensures Valid(st) ==> Valid(r)
  {
    st.(active := name)
  }

  /** `deleteBranch` with the confirmation accepted. */
  function DeleteBranch(st: Store, name: string): (r: Result<Store, BranchError>)
    ensures name == Main <==> r.Err?
    ensures r.Err? ==> r.error == ProtectedBranch
    ensures r.Ok? ==>
              && r.value.branches.Keys == st.branches.Keys - {name}
              && (forall k | k in r.value.branches :: r.value.branches[k] == st.branches[k])
              && r.value.active == (if st.active == name then Main else st.active)
    ensures r.Ok? && Valid(st) ==> Valid(r.value)
  {
    if name == Main then Err(ProtectedBranch)
    else Ok(Store(st.branches - {name}, if st.active == name then Main else st.active))
  }

  /** Deleting "main" is refused and so leaves the store as it was. */
  lemma MainIsProtected(st: Store)
    ensures DeleteBranch(st, Main) == Err(ProtectedBranch)
  {
  }

  /** Creating a branch under a fresh name and deleting it again restores the
      branch map; the active branch falls back to "main". */
  lemma CreateThenDelete(st: Store, name: string)
    requires !IsBlank(name) && name != Main && name !in st.branches
    ensures DeleteBranch(CreateBranch(st, name), name) == Ok(st.(active := Main))
  {
    assert st.branches[name := []] - {name} == st.branches;
  }

  /** `saveGridState`'s append to the active branch; the source throws when
      the active name has no list. */
  function AppendSnapshot(st: Store, sn: Snapshot): (r: Result<Store, BranchError>)
    ensures r.Err? <==> st.active !in st.branches
    ensures r.Err? ==> r.error == UnknownBranch
    ensures r.Ok? ==>
              && r.value.active == st.active
              && r.value.branches.Keys == st.branches.Keys
              && States(r.value) == States(st) + [sn]
              && forall k | k in st.branches && k != st.active :: r.value.branches[k] == st.branches[k]
    ensures r.Ok? && Valid(st) && WellFormed(sn) ==> Valid(r.value)
  {
    if st.active !in st.branches then Err(UnknownBranch)
    else Ok(st.(branches := st.branches[st.active := st.branches[st.active] + [sn]]))
  }

  /** The start position JavaScript's `splice(index, 1)` uses: a negative
      index counts from the end (and stops at 0); a large one stops at the length. */
  function SpliceStart(len: nat, index: int): (k: nat)
    ensures k <= len
  {
    if index < 0 then Max(len + index, 0) else Min(index, len)
  }

  /** `xs.splice(index, 1)`: removes at most one element. */
  function Splice<T>(xs: seq<T>, index: int): (r: seq<T>)
    ensures 0 <= index < |xs| ==> r == xs[..index] + xs[index + 1..]
    ensures -|xs| <= index < 0 ==> r == xs[..|xs| + index] + xs[|xs| + index + 1..]
    ensures index < -|xs| && |xs| > 0 ==> r == xs[1..]
    ensures index >= |xs| ==> r == xs
  {
    var k := SpliceStart(|xs|, index);
    if k < |xs| then xs[..k] + xs[k + 1..] else xs
  }

  /** Removing the element just appended, by its index or by -1, undoes the append. */
  lemma SpliceUndoesAppend<T>(xs: seq<T>, x: T)
    ensures Splice(xs + [x], |xs|) == xs
    ensures Splice(xs + [x], -1) == xs
  {
    assert (xs + [x])[..|xs|] == xs;
  }

  /** `deleteGridState`: a splice of the active branch's list. */
  function DeleteSnapshot(st: Store, index: int): (r: Result<Store, BranchError>)
    ensures r.Err? <==> st.active !in st.branches
    ensures r.Err? ==> r.error == UnknownBranch
    ensures r.Ok? ==>
              && r.value.active == st.active
              && r.value.branches.Keys == st.branches.Keys
              && States(r.value) == Splice(States(st), index)
              && forall k | k in st.branches && k != st.active :: r.value.branches[k] == st.branches[k]
    ensures r.Ok? && Valid(st) ==> Valid(r.value)
  {
    if st.active !in st.branches then Err(UnknownBranch)
    else
      var states := st.branches[st.active];
      var kept := Splice(states, index);
      assert forall k | 0 <= k < |kept| :: kept[k] in states;
      Ok(st.(branches := st.branches[st.active := kept]))
  }

  /** Every operation keeps "main" in the store. */
  lemma MainSurvives(st: Store, name: string, sn: Snapshot, index: int)
    requires Main in st.branches
    ensures Main in CreateBranch(st, name).branches
    ensures Main in SwitchBranch(st, name).branches
    ensures DeleteBranch(st, name).Ok? ==> Main in DeleteBranch(st, name).value.branches
    ensures AppendSnapshot(st, sn).Ok? ==> Main in AppendSnapshot(st, sn).value.branches
    ensures DeleteSnapshot(st, index).Ok? ==> Main in DeleteSnapshot(st, index).value.branches
  {
  }
}

=== FILE: cells.dfy ===
/** The grid buffer: a `rows × cols` array of one-character cells, and the
    cell-level writes every editing operation is built from. */
module Cells {
  import opened Common

  /** Row-major cell contents; each cell holds exactly one character. */
  type Grid = seq<seq<char>>

  /** `g` has `rows` rows of `cols` cells each. */
  predicate IsGrid(g: Grid, rows: int, cols: int) {
    |g| == rows && forall i | 0 <= i < |g| :: |g[i]| == cols
  }

  /** `len > 0 ? s[0] : ' '`: the cell stored for a piece of text. */
  function Normalize(s: string): char {
    if |s| > 0 then s[0] else ' '
  }

  /** A grid of blanks, as `createGrid` builds it. */
  function Blank(rows: nat, cols: nat): (g: Grid)
    ensures IsGrid(g, rows, cols)
    ensures forall i, j | 0 <= i < rows && 0 <= j < cols :: g[i][j] == ' '
  {
    seq(rows, _ => seq(cols, _ => ' '))
  }

  /** `tiles[r][c].textContent = ch`. */
  function SetCell(g: Grid, rows: int, cols: int, p: Pos, ch: char): (h: Grid)
    requires IsGrid(g, rows, cols) && InGrid(p, rows, cols)
    ensures IsGrid(h, rows, cols)
    ensures h[p.0][p.1] == ch
    ensures forall i, j | 0 <= i < rows && 0 <= j < cols && (i, j) != p :: h[i][j] == g[i][j]
  {
    g[p.0 := g[p.0][p.1 := ch]]
  }

  /** Every cell named in `cells` set to `ch`; the rest left alone. */
  function Fill(g: Grid, rows: int, cols: int, cells: set<Pos>, ch: char): (h: Grid)
    requires IsGrid(g, rows, cols)
    ensures IsGrid(h, rows, cols)
    ensures forall i, j | 0 <= i < rows && 0 <= j < cols ::
              h[i][j] == (if (i, j) in cells then ch else g[i][j])
  {
    seq(rows, i requires 0 <= i < rows =>
      seq(|g[i]|, j requires 0 <= j < |g[i]| => if (i, j) in cells then ch else g[i][j]))
  }

  /** The grid as the source stores it in a snapshot: one string per cell. */
  function ToStrings(g: Grid): seq<seq<string>> {
    seq(|g|, i requires 0 <= i < |g| => seq(|g[i]|, j requires 0 <= j < |g[i]| => [g[i][j]]))
  }

  /** Stored strings read back into cells, each through `Normalize`. */
  function NormalizeGrid(sg: seq<seq<string>>): seq<seq<char>> {
    seq(|sg|, i requires 0 <= i < |sg| =>
      seq(|sg[i]|, j requires 0 <= j < |sg[i]| => Normalize(sg[i][j])))
  }

  /** Storing a grid as strings and normalising it back gives the same grid. */
  lemma NormalizeToStrings(g: Grid)
    ensures NormalizeGrid(ToStrings(g)) == g
  {
    var h := NormalizeGrid(ToStrings(g));
    assert |h| == |g|;
    forall i | 0 <= i < |g|
      ensures h[i] == g[i]
    {
      assert |h[i]| == |g[i]|;
    }
  }
}

=== FILE: clipboard.dfy ===
/** The clipboard: the text a selection copies (`getSelectionText`), the
    whole-grid copy (`copyText`), the preview text, and the two ways text is
    pasted into the grid: the document `paste` listener at the cursor and
    `pasteAtTile` at a chosen tile. */
module Clipboard {
  import opened Common
  import opened Text
  import opened Cells
  import opened Selection
  import opened Editor
  import History

  /** Row `i` of `g` between columns `c0` and `c1`, inclusive. */
  function Span(g: Grid, i: int, c0: int, c1: int): (line: string)
    requires 0 <= i < |g| && 0 <= c0 <= c1 + 1 <= |g[i]|
    ensures |line| == c1 - c0 + 1
  {
    g[i][c0..c1 + 1]
  }

  /** One line per row of the box `b`, trailing white space removed. */
  function BoxLines(g: Grid, rows: int, cols: int, b: Bounds): (lines: seq<string>)
    requires IsGrid(g, rows, cols)
    requires 0 <= b.minR <= b.maxR < rows && 0 <= b.minC <= b.maxC < cols
    ensures |lines| == b.maxR - b.minR + 1
    ensures forall k | 0 <= k < |lines| :: lines[k] == TrimEnd(Span(g, b.minR + k, b.minC, b.maxC))
    ensures LinesFit(lines, b.minC, b.minC, cols)
    ensures forall k | 0 <= k < |lines| :: |lines[k]| <= b.maxC - b.minC + 1
  {
    seq(b.maxR - b.minR + 1, k requires 0 <= k < b.maxR - b.minR + 1 =>
      TrimEnd(Span(g, b.minR + k, b.minC, b.maxC)))
  }

  /** The bounding box of a selection is a real rectangle: its minimum
      corner is not past its maximum corner. */
  lemma BoxOrdered(s: Session)
    requires Valid(s) && s.sel != {}
    ensures Box(s).minR <= Box(s).maxR && Box(s).minC <= Box(s).maxC
  {
    var p :| p in s.sel;
    assert Inside(p, Box(s));
  }

  /** `getSelectionText`: empty for an empty selection; otherwise the rows of
      the bounding box, each trimmed of trailing white space, joined by '\n'.
      Unselected cells inside the box are copied too. */
  function SelectionText(s: Session): (text: string)
    requires Valid(s)
    ensures s.sel == {} ==> text == ""
    ensures s.sel != {} ==>
              var b := Box(s);
              b.minR <= b.maxR && b.minC <= b.maxC && text == Join(BoxLines(s.grid, s.rows, s.cols, b))
  {
    if s.sel == {} then ""
    else
      BoxOrdered(s);
      Join(BoxLines(s.grid, s.rows, s.cols, Box(s)))
  }

  /** The whole grid as a box. */
  function Whole(s: Session): (b: Bounds)
    requires Valid(s)
    ensures Region(b) == set i, j | 0 <= i < s.rows && 0 <= j < s.cols :: (i, j)
  {
    var b := Bounds(0, s.rows - 1, 0, s.cols - 1);
    assert forall p | p in Region(b) :: InBounds(s, p);
    b
  }

  /** `copyText`: every row of the grid trimmed of trailing white space,
      joined by '\n'. */
  function CopyText(s: Session): (text: string)
    requires Valid(s)
    ensures text == Join(BoxLines(s.grid, s.rows, s.cols, Whole(s)))
  {
    var lines := seq(s.rows, i requires 0 <= i < s.rows => TrimEnd(s.grid[i]));
    assert lines == BoxLines(s.grid, s.rows, s.cols, Whole(s)) by {
      forall i | 0 <= i < s.rows
        ensures Span(s.grid, i, 0, s.cols - 1) == s.grid[i]
      {
      }
    }
    Join(lines)
  }

  /** Copying the grid is copying a selection of every cell. */
  lemma CopyTextSelectsAll(s: Session)
    requires Valid(s)
    ensures var all := s.(sel := Region(Whole(s)));
            Valid(all) && CopyText(s) == SelectionText(all)
  {
    var b := Whole(s);
    var all := s.(sel := Region(b));
    assert (0, 0) in all.sel;
    assert Valid(all);
    RectBounds(0, 0, s.rows - 1, s.cols - 1);
    assert Region(b) == Rect(0, 0, s.rows - 1, s.cols - 1);
    assert Box(all) == b;
  }

  /** The preview text: every row trimmed and followed by '\n'. */
  function Terminated(lines: seq<string>): string
    decreases |lines|
  {
    if |lines| == 0 then "" else lines[0] + "\n" + Terminated(lines[1..])
  }

  /** `updatePreview`'s text for the current grid. */
  function PreviewText(s: Session): string
    requires Valid(s)
  {
    Terminated(seq(s.rows, i requires 0 <= i < s.rows => TrimEnd(s.grid[i])))
  }

  /** Terminating every line is joining them and adding one final '\n'. */
  lemma {:induction false} TerminatedJoin(lines: seq<string>)
    requires |lines| >= 1
    ensures Terminated(lines) == Join(lines) + "\n"
    decreases |lines|
  {
    if |lines| == 1 {
      assert Terminated(lines[1..]) == "";
    } else {
      TerminatedJoin(lines[1..]);
    }
  }

  /** The preview shows exactly what `copyText` copies, plus a final '\n'. */
  lemma PreviewIsCopyText(s: Session)
    requires Valid(s)
    ensures PreviewText(s) == CopyText(s) + "\n"
  {
    TerminatedJoin(seq(s.rows, i requires 0 <= i < s.rows => TrimEnd(s.grid[i])));
  }

  /** With no line break stored in the box, the copied text has one line per
      row of the box, and splitting it at '\n' gives back those rows, trimmed. */
  lemma SelectionTextLines(s: Session)
    requires Valid(s) && s.sel != {}
    requires forall i, j | Inside((i, j), Box(s)) :: s.grid[i][j] != '\n'
    ensures Split(SelectionText(s)) == BoxLines(s.grid, s.rows, s.cols, Box(s))
    ensures Newlines(SelectionText(s)) == Box(s).maxR - Box(s).minR
  {
    var b := Box(s);
    BoxOrdered(s);
    var lines := BoxLines(s.grid, s.rows, s.cols, b);
    forall k | 0 <= k < |lines|
      ensures NoNewline(lines[k])
    {
      var span := Span(s.grid, b.minR + k, b.minC, b.maxC);
      forall x | 0 <= x < |lines[k]|
        ensures lines[k][x] != '\n'
      {
        assert lines[k][x] == span[x];
        assert Inside((b.minR + k, b.minC + x), b);
      }
    }
    SplitJoin(lines);
    JoinNewlines(lines);
  }

  /** Where the cursor goes after a pasted '\n' and after the text reaches the
      last column, and whether a '\n' right after such a wrap is absorbed. */
  datatype Rules = Rules(newlineCol: int, wrapCol: int, absorbAfterWrap: bool)

  predicate RulesFit(rules: Rules, cols: int) {
    0 <= rules.newlineCol < cols && 0 <= rules.wrapCol < cols
  }

  /** The grid and position after placing some text; `wrapped` records that
      the last character ended a row. */
  datatype Placed = Placed(grid: Grid, row: int, col: int, wrapped: bool)

  /** The paste loop `for (let char of text)`: stop once the row leaves the
      grid; a '\n' moves to the next row at `newlineCol`; any other character
      is written at the position, which then advances and, at the end of the
      row, wraps to the next row at `wrapCol`. */
  function Place(g: Grid, rows: int, cols: int, rules: Rules, text: string, r: int, c: int, wrapped: bool): (p: Placed)
    requires IsGrid(g, rows, cols) && RulesFit(rules, cols) && 0 <= r && 0 <= c < cols
    ensures IsGrid(p.grid, rows, cols) && 0 <= p.col < cols && r <= p.row
    ensures forall i, j | 0 <= i < rows && 0 <= j < cols && p.grid[i][j] != g[i][j] ::
              p.grid[i][j] in text && p.grid[i][j] != '\n'
    ensures forall i, j | 0 <= i < r && i < rows && 0 <= j < cols :: p.grid[i][j] == g[i][j]
    decreases |text|
  {
    if |text| == 0 || r >= rows then Placed(g, r, c, wrapped)
    else if text[0] == '\n' then
      var p := Place(g, rows, cols, rules, text[1..], if rules.absorbAfterWrap && wrapped then r else r + 1,
                     rules.newlineCol, false);
      assert forall x | x in text[1..] :: x in text;
      p
    else
      var h := SetCell(g, rows, cols, (r, c), text[0]);
      var p := if c + 1 >= cols then Place(h, rows, cols, rules, text[1..], r + 1, rules.wrapCol, true)
               else Place(h, rows, cols, rules, text[1..], r, c + 1, false);
      assert forall x | x in text[1..] :: x in text;
      p
  }

  /** The loop stops as soon as the row leaves the grid: started inside it,
      it ends at most one row below it; started below it, it writes nothing. */
  lemma {:induction false} PlaceStops(g: Grid, rows: int, cols: int, rules: Rules, text: string,
                                       r: int, c: int, wrapped: bool)
    requires IsGrid(g, rows, cols) && RulesFit(rules, cols) && 0 <= r && 0 <= c < cols
    ensures r < rows ==> Place(g, rows, cols, rules, text, r, c, wrapped).row <= rows
    ensures r >= rows ==> Place(g, rows, cols, rules, text, r, c, wrapped).grid == g
    decreases |text|
  {
    if |text| > 0 && r < rows {
      if text[0] == '\n' {
        PlaceStops(g, rows, cols, rules, text[1..], if rules.absorbAfterWrap && wrapped then r else r + 1,
                   rules.newlineCol, false);
      } else {
        var h := SetCell(g, rows, cols, (r, c), text[0]);
        if c + 1 >= cols {
          PlaceStops(h, rows, cols, rules, text[1..], r + 1, rules.wrapCol, true);
        } else {
          PlaceStops(h, rows, cols, rules, text[1..], r, c + 1, false);
        }
      }
    }
  }

  /** `line` written into row `r` from column `c` on. */
  function WriteRow(g: Grid, rows: int, cols: int, r: int, c: int, line: string): (h: Grid)
    requires IsGrid(g, rows, cols) && 0 <= r < rows && 0 <= c && c + |line| <= cols
    ensures IsGrid(h, rows, cols)
    ensures forall i, j | 0 <= i < rows && 0 <= j < cols ::
              h[i][j] == (if i == r && c <= j < c + |line| then line[j - c] else g[i][j])
  {
    g[r := g[r][..c] + line + g[r][c + |line|..]]
  }

  /** The first line fits from column `c`, every later one from column `nc`. */
  predicate LinesFit(lines: seq<string>, c: int, nc: int, cols: int) {
    && (|lines| > 0 ==> c + |lines[0]| <= cols)
    && forall k | 1 <= k < |lines| :: nc + |lines[k]| <= cols
  }

  /** The column line `i` of a block starts at: `c` on its first row, `nc` after. */
  function StartCol(i: int, r: int, c: int, nc: int): int {
    if i == r then c else nc
  }

  /** A block of lines written row by row from `(r, c)`, later lines starting
      at column `nc`: the intended result of pasting the lines joined by '\n'. */
  function Overlay(g: Grid, rows: int, cols: int, lines: seq<string>, r: int, c: int, nc: int): (o: Grid)
    requires IsGrid(g, rows, cols) && 0 <= r && r + |lines| <= rows && 0 <= c && 0 <= nc
    requires LinesFit(lines, c, nc, cols)
    ensures IsGrid(o, rows, cols)
    decreases |lines|
  {
    if |lines| == 0 then g
    else
      assert LinesFit(lines[1..], nc, nc, cols) by {
        assert forall k | 0 <= k < |lines[1..]| :: lines[1..][k] == lines[k + 1];
      }
      Overlay(WriteRow(g, rows, cols, r, c, lines[0]), rows, cols, lines[1..], r + 1, nc, nc)
  }

  /** Each cell of an overlay: line `i - r` where it reaches on row `i`, the
      old cell everywhere else. */
  lemma {:induction false} OverlayCells(g: Grid, rows: int, cols: int, lines: seq<string>, r: int, c: int, nc: int)
    requires IsGrid(g, rows, cols) && 0 <= r && r + |lines| <= rows && 0 <= c && 0 <= nc
    requires LinesFit(lines, c, nc, cols)
    ensures var o := Overlay(g, rows, cols, lines, r, c, nc);
            forall i, j {:trigger o[i][j]} | 0 <= i < rows && 0 <= j < cols ::
              o[i][j] == (if r <= i < r + |lines| && StartCol(i, r, c, nc) <= j < StartCol(i, r, c, nc) + |lines[i - r]|
                          then lines[i - r][j - StartCol(i, r, c, nc)] else g[i][j])
    decreases |lines|
  {
    if |lines| > 0 {
      var rest := lines[1..];
      assert LinesFit(rest, nc, nc, cols) by {
        assert forall k | 0 <= k < |rest| :: rest[k] == lines[k + 1];
      }
      var h := WriteRow(g, rows, cols, r, c, lines[0]);
      OverlayCells(h, rows, cols, rest, r + 1, nc, nc);
      var o := Overlay(g, rows, cols, lines, r, c, nc);
      assert o == Overlay(h, rows, cols, rest, r + 1, nc, nc);
      forall i, j | 0 <= i < rows && 0 <= j < cols
        ensures o[i][j] == (if r <= i < r + |lines| && StartCol(i, r, c, nc) <= j < StartCol(i, r, c, nc) + |lines[i - r]|
                            then lines[i - r][j - StartCol(i, r, c, nc)] else g[i][j])
      {
        assert o[i][j] == (if r + 1 <= i < r + 1 + |rest| && StartCol(i, r + 1, nc, nc) <= j < StartCol(i, r + 1, nc, nc) + |rest[i - (r + 1)]|
                           then rest[i - (r + 1)][j - StartCol(i, r + 1, nc, nc)] else h[i][j]);
        if r + 1 <= i < r + |lines| {
          assert rest[i - (r + 1)] == lines[i - r];
        }
      }
    }
  }

  /** Placing two texts one after the other is placing their concatenation. */
  lemma {:induction false} PlaceAppend(g: Grid, rows: int, cols: int, rules: Rules, a: string, b: string,
                                        r: int, c: int, w: bool)
    requires IsGrid(g, rows, cols) && RulesFit(rules, cols) && 0 <= r && 0 <= c < cols
    ensures var p := Place(g, rows, cols, rules, a, r, c, w);
            Place(g, rows, cols, rules, a + b, r, c, w) == Place(p.grid, rows, cols, rules, b, p.row, p.col, p.wrapped)
    decreases |a|
  {
    if |a| == 0 {
      assert a + b == b;
    } else if r < rows {
      assert (a + b)[0] == a[0];
      assert (a + b)[1..] == a[1..] + b;
      if a[0] == '\n' {
        PlaceAppend(g, rows, cols, rules, a[1..], b,
                    if rules.absorbAfterWrap && w then r else r + 1, rules.newlineCol, false);
      } else {
        var h := SetCell(g, rows, cols, (r, c), a[0]);
        if c + 1 >= cols {
          PlaceAppend(h, rows, cols, rules, a[1..], b, r + 1, rules.wrapCol, true);
        } else {
          PlaceAppend(h, rows, cols, rules, a[1..], b, r, c + 1, false);
        }
      }
    }
  }

  /** Writing one character and then the rest of a line is writing the line. */
  lemma WriteRowCons(g: Grid, rows: int, cols: int, r: int, c: int, x: char, rest: string)
    requires IsGrid(g, rows, cols) && 0 <= r < rows && 0 <= c && c + 1 + |rest| <= cols
    ensures WriteRow(SetCell(g, rows, cols, (r, c), x), rows, cols, r, c + 1, rest)
            == WriteRow(g, rows, cols, r, c, [x] + rest)
  {
    var h := SetCell(g, rows, cols, (r, c), x);
    assert h[r] == g[r][c := x];
    assert h[r][..c + 1] == g[r][..c] + [x];
    assert h[r][c + 1 + |rest|..] == g[r][c + 1 + |rest|..];
    assert h[r][..c + 1] + rest + h[r][c + 1 + |rest|..] == g[r][..c] + ([x] + rest) + g[r][c + |[x] + rest|..];
  }

  /** A newline-free, nonempty line that fits in the row is written in place;
      the position ends after it, or on the next row at `wrapCol` when the
      line reaches the last column. */
  lemma {:induction false} PlaceLine(g: Grid, rows: int, cols: int, rules: Rules, line: string,
                                      r: int, c: int, w: bool)
    requires IsGrid(g, rows, cols) && RulesFit(rules, cols) && 0 <= r < rows && 0 <= c
    requires NoNewline(line) && |line| > 0 && c + |line| <= cols
    ensures Place(g, rows, cols, rules, line, r, c, w)
            == Placed(WriteRow(g, rows, cols, r, c, line),
                      if c + |line| < cols then r else r + 1,
                      if c + |line| < cols then c + |line| else rules.wrapCol,
                      c + |line| == cols)
    decreases |line|
  {
    assert line[0] in line;
    var h := SetCell(g, rows, cols, (r, c), line[0]);
    WriteRowCons(g, rows, cols, r, c, line[0], line[1..]);
    assert [line[0]] + line[1..] == line;
    if |line| == 1 {
      assert h[r][..c + 1] + line[1..] + h[r][c + 1..] == h[r];
      assert WriteRow(h, rows, cols, r, c + 1, line[1..]) == h;
    } else {
      assert NoNewline(line[1..]) by {
        assert forall x | x in line[1..] :: x in line;
      }
      PlaceLine(h, rows, cols, rules, line[1..], r, c + 1, false);
    }
  }

  /** A newline-free line that fits in the row, followed by '\n', is written
      in place and leaves the position at `newlineCol` on the next row, whether
      or not the line reached the last column, once a '\n' after an automatic
      wrap is absorbed. */
  lemma LineBreak(g: Grid, rows: int, cols: int, rules: Rules, line: string, r: int, c: int)
    requires IsGrid(g, rows, cols) && RulesFit(rules, cols) && rules.absorbAfterWrap
    requires 0 <= r && r + 1 < rows && 0 <= c < cols
    requires NoNewline(line) && c + |line| <= cols
    ensures Place(g, rows, cols, rules, line + "\n", r, c, false)
            == Placed(WriteRow(g, rows, cols, r, c, line), r + 1, rules.newlineCol, false)
  {
    var first := WriteRow(g, rows, cols, r, c, line);
    if |line| == 0 {
      assert g[r][..c] + line + g[r][c..] == g[r];
      assert first == g;
      assert line + "\n" == "\n";
    } else {
      PlaceLine(g, rows, cols, rules, line, r, c, false);
    }
    PlaceAppend(g, rows, cols, rules, line, "\n", r, c, false);
    assert "\n"[1..] == "";
  }

  /** A newline-free line that fits in the row is written in place. */
  lemma LastLine(g: Grid, rows: int, cols: int, rules: Rules, line: string, r: int, c: int)
    requires IsGrid(g, rows, cols) && RulesFit(rules, cols) && 0 <= r < rows && 0 <= c < cols
    requires NoNewline(line) && c + |line| <= cols
    ensures Place(g, rows, cols, rules, line, r, c, false).grid == WriteRow(g, rows, cols, r, c, line)
  {
    if |line| == 0 {
      assert g[r][..c] + line + g[r][c..] == g[r];
    } else {
      PlaceLine(g, rows, cols, rules, line, r, c, false);
    }
  }

  /** With a '\n' after an automatic wrap absorbed, pasting lines joined by
      '\n' writes line k on row r + k: the first from column `c`, the rest
      from `newlineCol`. */
  lemma {:induction false} PlaceJoin(g: Grid, rows: int, cols: int, rules: Rules, lines: seq<string>, r: int, c: int)
    requires IsGrid(g, rows, cols) && RulesFit(rules, cols) && rules.absorbAfterWrap
    requires 0 <= r && r + |lines| <= rows && |lines| >= 1 && 0 <= c < cols
    requires LinesFit(lines, c, rules.newlineCol, cols)
    requires forall k | 0 <= k < |lines| :: NoNewline(lines[k])
    ensures Place(g, rows, cols, rules, Join(lines), r, c, false).grid
            == Overlay(g, rows, cols, lines, r, c, rules.newlineCol)
    decreases |lines|
  {
    var nc := rules.newlineCol;
    var first := WriteRow(g, rows, cols, r, c, lines[0]);
    if |lines| == 1 {
      LastLine(g, rows, cols, rules, lines[0], r, c);
    } else {
      var rest := lines[1..];
      assert LinesFit(rest, nc, nc, cols) by {
        assert forall k | 0 <= k < |rest| :: rest[k] == lines[k + 1];
      }
      LineBreak(g, rows, cols, rules, lines[0], r, c);
      assert Join(lines) == (lines[0] + "\n") + Join(rest);
      PlaceAppend(g, rows, cols, rules, lines[0] + "\n", Join(rest), r, c, false);
      PlaceJoin(first, rows, cols, rules, rest, r + 1, nc);
    }
  }

  /** The single-character paste into a nonempty selection: save, write the
      character into every selected cell, move the cursor (and anchor) to the
      bottom-right corner of the bounding box, and clear the selection. */
  function FillSelection(s: Session, ch: char): (r: Session)
    requires Valid(s) && s.sel != {}
    ensures Valid(r) && r.rows == s.rows && r.cols == s.cols
    ensures r.grid == Fill(s.grid, s.rows, s.cols, s.sel, ch)
    ensures r.cursor == (Box(s).maxR, Box(s).maxC) && r.anchor == r.cursor && r.sel == {}
    ensures r.history == History.Push(s.history, EntryOf(s)) && r.store == s.store && r.play == s.play
  {
    var b := Box(s);
    Focus(Redrawn(s, Fill(s.grid, s.rows, s.cols, s.sel, ch), {}), (b.maxR, b.maxC), true)
  }

  /** The `paste` listener, given how it treats line ends: nothing for empty
      text; a single character with a selection fills the selection;
      otherwise the text is placed from the cursor, which then moves (with
      the anchor) to where the text ended if that is a cell. */
  function PasteWith(s: Session, text: string, rules: Rules): (r: Session)
    requires Valid(s) && RulesFit(rules, s.cols)
    ensures Valid(r) && r.rows == s.rows && r.cols == s.cols && r.store == s.store && r.play == s.play
    ensures |text| == 0 ==> r == s
    ensures |text| > 0 ==> r.history == History.Push(s.history, EntryOf(s))
    ensures |text| == 1 && s.sel != {} ==> r == FillSelection(s, text[0])
    ensures |text| > 0 && !(|text| == 1 && s.sel != {}) ==>
              var p := Place(s.grid, s.rows, s.cols, rules, text, s.cursor.0, s.cursor.1, false);
              && r.grid == p.grid && r.sel == s.sel
              && r.cursor == (if p.row < s.rows then (p.row, p.col) else s.cursor)
              && r.anchor == (if p.row < s.rows then (p.row, p.col) else s.anchor)
  {
    if |text| == 0 then s
    else if |text| == 1 && s.sel != {} then FillSelection(s, text[0])
    else
      var p := Place(s.grid, s.rows, s.cols, rules, text, s.cursor.0, s.cursor.1, false);
      Focus(SaveState(s).(grid := p.grid), (p.row, p.col), true)
  }

  /** The listener's rules as written: after '\n' back to the cursor's
      column on the next row; after the last column to column 0 of the next
      row, so a '\n' right after that wrap skips a row. */
  function PasteTextAsWritten(s: Session, text: string): (r: Session)
    requires Valid(s)
  {
    PasteWith(s, text, Rules(s.cursor.1, 0, false))
  }

  /** The listener with a '\n' that directly follows an automatic wrap
      absorbed, so that every line of the text starts a row of its own. */
  function PasteText(s: Session, text: string): (r: Session)
    requires Valid(s)
  {
    PasteWith(s, text, Rules(s.cursor.1, 0, true))
  }

  /** `pasteAtTile(p)` given how it treats line ends: like the listener, but
      the cursor is moved to `p` (with the anchor) and the text is placed from
      there. */
  function PasteAtWith(s: Session, p: Pos, text: string, rules: Rules): (r: Session)
    requires Valid(s) && InBounds(s, p) && RulesFit(rules, s.cols)
    ensures Valid(r) && r.rows == s.rows && r.cols == s.cols && r.store == s.store && r.play == s.play
    ensures |text| == 0 ==> r == s
    ensures |text| > 0 ==> r.history == History.Push(s.history, EntryOf(s))
    ensures |text| == 1 && s.sel != {} ==> r == FillSelection(s, text[0])
    ensures |text| > 0 && !(|text| == 1 && s.sel != {}) ==>
              var placed := Place(s.grid, s.rows, s.cols, rules, text, p.0, p.1, false);
              && r.grid == placed.grid && r.sel == s.sel
              && r.cursor == (if placed.row < s.rows then (placed.row, placed.col) else p)
              && r.anchor == r.cursor
  {
    if |text| == 0 then s
    else if |text| == 1 && s.sel != {} then FillSelection(s, text[0])
    else
      var placed := Place(s.grid, s.rows, s.cols, rules, text, p.0, p.1, false);
      Focus(Focus(SaveState(s), p, true).(grid := placed.grid), (placed.row, placed.col), true)
  }

  /** `pasteAtTile`'s rules as written: after '\n' to column 0 of the next
      row; after the last column back to the tile's column on the next row. */
  function PasteAtTileAsWritten(s: Session, p: Pos, text: string): (r: Session)
    requires Valid(s) && InBounds(s, p)
  {
    PasteAtWith(s, p, text, Rules(0, p.1, false))
  }

  /** `pasteAtTile` with a '\n' right after an automatic wrap absorbed. */
  function PasteAtTile(s: Session, p: Pos, text: string): (r: Session)
    requires Valid(s) && InBounds(s, p)
  {
    PasteAtWith(s, p, text, Rules(0, p.1, true))
  }

  /** The only white space in the rectangle `b` of `g` is ' '. */
  predicate PlainSpaces(g: Grid, b: Bounds)
    requires 0 <= b.minR && b.maxR < |g| && 0 <= b.minC && forall i | b.minR <= i <= b.maxR :: b.maxC < |g[i]|
  {
    forall i, j | b.minR <= i <= b.maxR && b.minC <= j <= b.maxC :: IsSpace(g[i][j]) ==> g[i][j] == ' '
  }

  /** The copied lines of a box with plain spaces are newline-free prefixes
      of its rows. */
  lemma BoxLinesPlain(g: Grid, rows: int, cols: int, b: Bounds)
    requires IsGrid(g, rows, cols)
    requires 0 <= b.minR <= b.maxR < rows && 0 <= b.minC <= b.maxC < cols
    requires PlainSpaces(g, b)
    ensures var lines := BoxLines(g, rows, cols, b);
            && (forall k | 0 <= k < |lines| :: NoNewline(lines[k]))
            && (forall k, x | 0 <= k < |lines| && 0 <= x < |lines[k]| :: lines[k][x] == g[b.minR + k][b.minC + x])
  {
    var lines := BoxLines(g, rows, cols, b);
    forall k, x | 0 <= k < |lines| && 0 <= x < |lines[k]|
      ensures lines[k][x] == g[b.minR + k][b.minC + x] && lines[k][x] != '\n'
    {
      var span := Span(g, b.minR + k, b.minC, b.maxC);
      assert lines[k][x] == span[x];
      assert Inside((b.minR + k, b.minC + x), b);
      assert IsSpace('\n');
    }
  }

  /** A cell of a line is kept by trimming, or is trailing white space. */
  lemma TrimmedCell(span: string, x: int)
    requires 0 <= x < |span|
    ensures x < |TrimEnd(span)| ==> TrimEnd(span)[x] == span[x]
    ensures x >= |TrimEnd(span)| ==> IsSpace(span[x])
  {
  }

  /** A cell of the box is either kept in its copied line or trimmed off
      as trailing white space. */
  lemma LineCell(g: Grid, rows: int, cols: int, b: Bounds, i: int, j: int)
    requires IsGrid(g, rows, cols)
    requires 0 <= b.minR <= b.maxR < rows && 0 <= b.minC <= b.maxC < cols
    requires Inside((i, j), b)
    ensures var line := BoxLines(g, rows, cols, b)[i - b.minR];
            && (j - b.minC < |line| ==> line[j - b.minC] == g[i][j])
            && (j - b.minC >= |line| ==> IsSpace(g[i][j]))
  {
    TrimmedCell(Span(g, i, b.minC, b.maxC), j - b.minC);
  }

  /** One cell of a block written over a box with its cells blanked: the
      line's character where the line reaches, a blank elsewhere in the box,
      and the old cell outside it. */
  lemma OverlayCell(blanked: Grid, rows: int, cols: int, lines: seq<string>, b: Bounds, i: int, j: int)
    requires IsGrid(blanked, rows, cols)
    requires 0 <= b.minR && b.minR + |lines| <= rows && 0 <= b.minC
    requires LinesFit(lines, b.minC, b.minC, cols)
    requires 0 <= i < rows && 0 <= j < cols
    ensures var o := Overlay(blanked, rows, cols, lines, b.minR, b.minC, b.minC);
            if b.minR <= i < b.minR + |lines| && b.minC <= j < b.minC + |lines[i - b.minR]|
            then o[i][j] == lines[i - b.minR][j - b.minC]
            else o[i][j] == blanked[i][j]
  {
    OverlayCells(blanked, rows, cols, lines, b.minR, b.minC, b.minC);
    assert StartCol(i, b.minR, b.minC, b.minC) == b.minC;
  }

  /** Writing a box's copied lines back over the box with its cells blanked
      restores the grid. */
  lemma OverlayRestores(g: Grid, blanked: Grid, rows: int, cols: int, b: Bounds)
    requires IsGrid(g, rows, cols) && IsGrid(blanked, rows, cols)
    requires 0 <= b.minR <= b.maxR < rows && 0 <= b.minC <= b.maxC < cols
    requires PlainSpaces(g, b)
    requires forall i, j | 0 <= i < rows && 0 <= j < cols ::
               blanked[i][j] == g[i][j] || (Inside((i, j), b) && blanked[i][j] == ' ')
    ensures Overlay(blanked, rows, cols, BoxLines(g, rows, cols, b), b.minR, b.minC, b.minC) == g
  {
    var lines := BoxLines(g, rows, cols, b);
    var o := Overlay(blanked, rows, cols, lines, b.minR, b.minC, b.minC);
    forall i | 0 <= i < rows
      ensures o[i] == g[i]
    {
      forall j | 0 <= j < cols
        ensures o[i][j] == g[i][j]
      {
        OverlayCell(blanked, rows, cols, lines, b, i, j);
        if Inside((i, j), b) {
          LineCell(g, rows, cols, b, i, j);
          assert IsSpace(g[i][j]) ==> g[i][j] == ' ';
        }
      }
    }
  }

  /** The copied lines of a box with plain spaces, placed back at its
      top-left corner (with the wrap absorbing the '\n') over the same grid
      with the box blanked, give the grid back. */
  lemma BlockRoundTrip(g: Grid, blanked: Grid, rows: int, cols: int, b: Bounds)
    requires IsGrid(g, rows, cols) && IsGrid(blanked, rows, cols)
    requires 0 <= b.minR <= b.maxR < rows && 0 <= b.minC <= b.maxC < cols
    requires PlainSpaces(g, b)
    requires forall i, j | 0 <= i < rows && 0 <= j < cols ::
               blanked[i][j] == g[i][j] || (Inside((i, j), b) && blanked[i][j] == ' ')
    ensures Place(blanked, rows, cols, Rules(b.minC, 0, true), Join(BoxLines(g, rows, cols, b)),
                  b.minR, b.minC, false).grid == g
  {
    var lines := BoxLines(g, rows, cols, b);
    BoxLinesPlain(g, rows, cols, b);
    PlaceJoin(blanked, rows, cols, Rules(b.minC, 0, true), lines, b.minR, b.minC);
    OverlayRestores(g, blanked, rows, cols, b);
  }

  /** Cutting a selection of any shape and pasting the cut text back at the
      top-left corner of its bounding box restores the grid: the selected
      cells come back from the text, and the unselected cells of the box are
      written with their own content or were spaces trimmed from the text, provided the only white space in
      the rectangle is ' ' (other white space is trimmed or split on when the
      text is copied) and the text is not a single character (which the paste
      would spread over the whole selection). */
  lemma CutPasteRoundTrip(s: Session)
    requires Valid(s) && s.sel != {}
    requires s.cursor == (Box(s).minR, Box(s).minC)
    requires PlainSpaces(s.grid, Box(s))
    requires |SelectionText(s)| != 1
    ensures PasteText(Cut(s), SelectionText(s)).grid == s.grid
  {
    var b := Box(s);
    BoxOrdered(s);
    var text := SelectionText(s);
    var t := Cut(s);
    BoundsCover(s.sel);
    forall i, j | 0 <= i < s.rows && 0 <= j < s.cols
      ensures t.grid[i][j] == s.grid[i][j] || (Inside((i, j), b) && t.grid[i][j] == ' ')
    {
      assert InBounds(s, (i, j));
      if (i, j) in s.sel {
        assert (i, j) in Region(b);
      }
    }
    if |text| == 0 {
      assert Place(t.grid, s.rows, s.cols, Rules(b.minC, 0, true), text, b.minR, b.minC, false).grid == t.grid;
    }
    BlockRoundTrip(s.grid, t.grid, s.rows, s.cols, b);
  }

  /** The session the as-written paste loses a row on: a 2 × 1 grid holding
      'A' above 'B', both cells selected, the cursor on 'A'. */
  function TwoRows(): (s: Session)
    ensures Valid(s) && s.sel != {} && s.sel == Region(Box(s)) && Box(s) == Bounds(0, 1, 0, 0)
  {
    var s := Session(2, 1, [['A'], ['B']], (0, 0), (0, 0), Rect(0, 0, 1, 0), Idle, [],
                     Branches.Initial(), Stopped);
    RectBounds(0, 0, 1, 0);
    s
  }

  /** Copying 'A' above 'B' gives "A\nB". */
  lemma TwoRowsText()
    ensures SelectionText(TwoRows()) == "A\nB"
  {
    var s := TwoRows();
    var lines := BoxLines(s.grid, s.rows, s.cols, Box(s));
    assert lines[0] == TrimEnd("A") == "A";
    assert lines[1] == TrimEnd("B") == "B";
    assert lines == ["A", "B"];
  }

  /** Cutting both cells blanks them and keeps the cursor on the top one. */
  lemma TwoRowsCut()
    ensures Cut(TwoRows()).grid == [[' '], [' ']] && Cut(TwoRows()).cursor == (0, 0)
    ensures Cut(TwoRows()).sel != {}
  {
    var t := Cut(TwoRows());
    assert t.grid[0][0] == ' ' && t.grid[1][0] == ' ';
    assert t.grid[0] == [' '] && t.grid[1] == [' '];
  }

  /** As written, placing "A\nB" from the top of two blank rows of one
      column leaves the second row blank. */
  lemma PlaceAsWrittenSkipsRow()
    ensures Place([[' '], [' ']], 2, 1, Rules(0, 0, false), "A\nB", 0, 0, false).grid == [['A'], [' ']]
  {
    var blank: Grid := [[' '], [' ']];
    var text := "A\nB";
    var rules := Rules(0, 0, false);
    var h := SetCell(blank, 2, 1, (0, 0), 'A');
    assert h[0] == ['A'] && h[1] == [' '];
    assert text[1..] == "\nB" && text[1..][1..] == "B";
    assert Place(h, 2, 1, rules, "B", 2, 0, false) == Placed(h, 2, 0, false);
    assert Place(h, 2, 1, rules, "\nB", 1, 0, true) == Placed(h, 2, 0, false);
  }

  /** As written, cutting 'A' above 'B' and pasting the cut text "A\nB" back
      leaves 'B' out: 'A' fills the only column, the wrap moves to the second
      row, and the '\n' moves past the last row. */
  lemma CutPasteAsWrittenLosesRow()
    ensures PasteTextAsWritten(Cut(TwoRows()), SelectionText(TwoRows())).grid == [['A'], [' ']]
    ensures PasteTextAsWritten(Cut(TwoRows()), SelectionText(TwoRows())).grid != TwoRows().grid
  {
    TwoRowsText();
    TwoRowsCut();
    PlaceAsWrittenSkipsRow();
    assert TwoRows().grid[1][0] == 'B';
  }

  /** With the wrap absorbing the '\n', the same cut and paste restores the grid. */
  lemma CutPasteKeepsRow()
    ensures PasteText(Cut(TwoRows()), SelectionText(TwoRows())).grid == TwoRows().grid
  {
    var s := TwoRows();
    TwoRowsText();
    assert PlainSpaces(s.grid, Box(s));
    CutPasteRoundTrip(s);
  }

  /** With the wrap absorbing the '\n', `pasteAtTile` of lines joined by '\n'
      writes line k on row `p.0 + k`: the first from the tile's column, the
      others from column 0. */
  lemma PasteAtTileLines(s: Session, p: Pos, lines: seq<string>)
    requires Valid(s) && InBounds(s, p) && (s.sel == {} || |Join(lines)| != 1)
    requires |lines| >= 1 && p.0 + |lines| <= s.rows && LinesFit(lines, p.1, 0, s.cols)
    requires forall k | 0 <= k < |lines| :: NoNewline(lines[k])
    ensures PasteAtTile(s, p, Join(lines)).grid == Overlay(s.grid, s.rows, s.cols, lines, p.0, p.1, 0)
  {
    var text := Join(lines);
    var rules := Rules(0, p.1, true);
    PlaceJoin(s.grid, s.rows, s.cols, rules, lines, p.0, p.1);
    if |text| == 0 {
      assert Place(s.grid, s.rows, s.cols, rules, text, p.0, p.1, false).grid == s.grid;
    }
  }

  /** As written, `pasteAtTile` of "A\nB" at the top of an empty 2 × 1 grid
      loses 'B' the same way; with the '\n' absorbed it lands below 'A'. */
  lemma PasteAtTileAsWrittenLosesRow()
    ensures PasteAtTileAsWritten(Init(2, 1), (0, 0), "A\nB").grid[1][0] == ' '
    ensures PasteAtTile(Init(2, 1), (0, 0), "A\nB").grid[1][0] == 'B'
  {
    var s := Init(2, 1);
    var text := "A\nB";
    assert text == Join(["A", "B"]);
    PasteAtTileLines(s, (0, 0), ["A", "B"]);
    var rules := Rules(0, 0, false);
    var h := SetCell(s.grid, 2, 1, (0, 0), 'A');
    assert text[1..] == "\nB" && text[1..][1..] == "B";
    assert Place(h, 2, 1, rules, "B", 2, 0, false) == Placed(h, 2, 0, false);
    assert Place(h, 2, 1, rules, "\nB", 1, 0, true) == Placed(h, 2, 0, false);
    assert Place(s.grid, 2, 1, rules, text, 0, 0, false).grid == h;
  }
}

=== FILE: common.dfy ===
/** Shared vocabulary of the editor model: optional values, results,
    cell positions and the extrema of finite integer sets. */
module Common {

  /** A value that may be absent (the source's `null`/`undefined`). */
  datatype Option<T> = None | Some(value: T)

  /** The outcome of an operation that the source may reject. */
  datatype Result<T, E> = Ok(value: T) | Err(error: E)

  /** A cell position `(row, column)`; the source keys selections by the string "r,c". */
  type Pos = (int, int)

  function Min(a: int, b: int): int { if a <= b then a else b }

  function Max(a: int, b: int): int { if a >= b then a else b }

  /** `p` names a cell of a `rows × cols` grid. */
  predicate InGrid(p: Pos, rows: int, cols: int) {
    0 <= p.0 < rows && 0 <= p.1 < cols
  }

  /** Some element of a non-empty set. */
  ghost function Pick<T>(xs: set<T>): (x: T)
    requires xs != {}
    ensures x in xs
  {
    var x :| x in xs; x
  }

  lemma {:induction false} MinExists(xs: set<int>)
    requires xs != {}
    ensures exists m :: m in xs && forall x | x in xs :: m <= x
    decreases |xs|
  {
    var y := Pick(xs);
    if xs == {y} {
      assert forall x | x in xs :: y <= x;
    } else {
      var rest := xs - {y};
      assert rest != {} by {
        assert xs - {y} != {};
      }
      MinExists(rest);
      var m :| m in rest && forall x | x in rest :: m <= x;
      var least := Min(m, y);
      forall x | x in xs
        ensures least <= x
      {
        if x != y { assert x in rest; }
      }
      assert least in xs;
    }
  }

  lemma {:induction false} MaxExists(xs: set<int>)
    requires xs != {}
    ensures exists m :: m in xs && forall x | x in xs :: x <= m
    decreases |xs|
  {
    var y := Pick(xs);
    if xs == {y} {
      assert forall x | x in xs :: x <= y;
    } else {
      var rest := xs - {y};
      assert rest != {} by {
        assert xs - {y} != {};
      }
      MaxExists(rest);
      var m :| m in rest && forall x | x in rest :: x <= m;
      var greatest := Max(m, y);
      forall x | x in xs
        ensures x <= greatest
      {
        if x != y { assert x in rest; }
      }
      assert greatest in xs;
    }
  }

  /** The least element of a non-empty finite set (`Math.min` folded over it). */
  function SetMin(xs: set<int>): (m: int)
    requires xs != {}
    ensures m in xs && forall x | x in xs :: m <= x
  {
    MinExists(xs);
    var m :| m in xs && forall x | x in xs :: m <= x; m
  }

  /** The greatest element of a non-empty finite set (`Math.max` folded over it). */
  function SetMax(xs: set<int>): (m: int)
    requires xs != {}
    ensures m in xs && forall x | x in xs :: x <= m
  {
    MaxExists(xs);
    var m :| m in xs && forall x | x in xs :: x <= m; m
  }
}

=== FILE: editor.dfy ===
/** The editing session: one immutable record holding the grid buffer, the
    cursor and selection anchor, the selection, the pointer-gesture flags,
    the undo history, the branch store and the playback state, with the
    transitions of the grid, cursor, undo and snapshot operations. */
module Editor {
  import opened Common
  import opened Cells
  import opened Selection
  import History
  import Branches

  /** The pointer-gesture variables: `isSelecting`, `selectionStart`,
      `selectionEnd`, `isDraggingSelection`, `dragStartPos`. */
  datatype Gesture = Gesture(
    isSelecting: bool,
    selectionStart: Option<Pos>,
    selectionEnd: Option<Pos>,
    isDragging: bool,
    dragStart: Option<Pos>)

  const Idle: Gesture := Gesture(false, None, None, false, None)

  /** `isPlaying`, `currentPlayIndex`, and the pending playback callback with
      its delay (`playbackTimer`). */
  datatype PlayState = PlayState(isPlaying: bool, index: nat, timer: Option<int>)

  const Stopped: PlayState := PlayState(false, 0, None)

  datatype Session = Session(
    rows: int,
    cols: int,
    grid: Grid,
    cursor: Pos,
    anchor: Pos,
    sel: set<Pos>,
    gesture: Gesture,
    history: seq<History.Entry>,
    store: Branches.Store,
    play: PlayState)

  predicate InBounds(s: Session, p: Pos) {
    InGrid(p, s.rows, s.cols)
  }

  /** At most `MaxHistory` entries, each a full grid of the current size with
      an in-bounds cursor (the history is emptied whenever the size changes). */
  predicate HistoryFits(h: seq<History.Entry>, rows: int, cols: int) {
    && |h| <= History.MaxHistory
    && forall k | 0 <= k < |h| :: IsGrid(h[k].grid, rows, cols) && InGrid(h[k].cursor, rows, cols)
  }

  /** The invariants every handler of the source maintains. */
  predicate Valid(s: Session) {
    && 1 <= s.rows && 1 <= s.cols
    && IsGrid(s.grid, s.rows, s.cols)
    && InBounds(s, s.cursor)
    && InBounds(s, s.anchor)
    && (forall p | p in s.sel :: InBounds(s, p))
    && (s.gesture.selectionStart.Some? ==> InBounds(s, s.gesture.selectionStart.value))
    && HistoryFits(s.history, s.rows, s.cols)
    && Branches.Valid(s.store)
  }

  /** `focusTile(r, c, updateAnchor)`: ignored unless `p` is a cell of the grid. */
  function Focus(s: Session, p: Pos, updateAnchor: bool): (r: Session)
    ensures InBounds(s, p) ==> r.cursor == p && r.anchor == (if updateAnchor then p else s.anchor)
    ensures !InBounds(s, p) ==> r == s
    ensures r.(cursor := s.cursor, anchor := s.anchor) == s
  {
    if InBounds(s, p) then s.(cursor := p, anchor := if updateAnchor then p else s.anchor) else s
  }

  /** `clearSelection`: nothing selected, gesture corners forgotten. */
  function ClearSelection(s: Session): (r: Session)
    ensures r.sel == {}
    ensures r.gesture.selectionStart.None? && r.gesture.selectionEnd.None?
    ensures r.(sel := s.sel, gesture := s.gesture) == s
    ensures Valid(s) ==> Valid(r)
  {
    s.(sel := {}, gesture := s.gesture.(selectionStart := None, selectionEnd := None))
  }

  /** `highlightSelection(r1, c1, r2, c2)`: clears the selection, then selects
      the inclusive rectangle between the two corners. */
  function Highlight(s: Session, r1: int, c1: int, r2: int, c2: int): (r: Session)
    requires Valid(s) && InBounds(s, (r1, c1)) && InBounds(s, (r2, c2))
    ensures Valid(r)
    ensures r.sel == Rect(r1, c1, r2, c2)
    ensures forall p :: p in r.sel <==>
              Min(r1, r2) <= p.0 <= Max(r1, r2) && Min(c1, c2) <= p.1 <= Max(c1, c2)
    ensures r.gesture.selectionStart.None? && r.gesture.selectionEnd.None?
    ensures r.(sel := s.sel, gesture := s.gesture) == s
  {
    ClearSelection(s).(sel := Rect(r1, c1, r2, c2))
  }

  /** `selectArea`: highlight, then move the cursor to the second corner. */
  function SelectArea(s: Session, r1: int, c1: int, r2: int, c2: int): (r: Session)
    requires Valid(s) && InBounds(s, (r1, c1)) && InBounds(s, (r2, c2))
    ensures Valid(r)
    ensures r.sel == Rect(r1, c1, r2, c2)
    ensures SelectionBounds(r.sel) == Some(Corners(r1, c1, r2, c2))
    ensures r.cursor == (r2, c2) && r.anchor == s.anchor
    ensures r.grid == s.grid && r.history == s.history
  {
    RectBounds(r1, c1, r2, c2);
    Focus(Highlight(s, r1, c1, r2, c2), (r2, c2), false)
  }

  /** The bounding box of a selection of in-bounds cells lies in the grid. */
  lemma BoundsInGrid(s: Session)
    requires Valid(s) && s.sel != {}
    ensures var b := SelectionBounds(s.sel).value;
            0 <= b.minR && b.maxR < s.rows && 0 <= b.minC && b.maxC < s.cols
  {
    var b := SelectionBounds(s.sel).value;
    var p1 :| p1 in s.sel && p1.0 == b.minR;
    var p2 :| p2 in s.sel && p2.0 == b.maxR;
    var p3 :| p3 in s.sel && p3.1 == b.minC;
    var p4 :| p4 in s.sel && p4.1 == b.maxC;
    assert InBounds(s, p1) && InBounds(s, p2) && InBounds(s, p3) && InBounds(s, p4);
  }

  /** The bounding box of a nonempty selection, a rectangle of the grid. */
  function Box(s: Session): (b: Bounds)
    requires Valid(s) && s.sel != {}
    ensures SelectionBounds(s.sel) == Some(b)
    ensures 0 <= b.minR && b.maxR < s.rows && 0 <= b.minC && b.maxC < s.cols
  {
    BoundsInGrid(s);
    SelectionBounds(s.sel).value
  }

  /** `createGrid` at the given size, with the selection cleared before the
      tiles are dropped: a blank grid, no history, nothing selected, cursor
      and anchor at (0, 0). Branches and playback are kept. */
  function CreateGrid(s: Session, rows: int, cols: int): (r: Session)
    requires Valid(s) && 1 <= rows && 1 <= cols
    ensures Valid(r)
    ensures r.rows == rows && r.cols == cols
    ensures r.grid == Blank(rows, cols)
    ensures r.history == [] && r.sel == {}
    ensures r.cursor == (0, 0) && r.anchor == (0, 0)
    ensures r.store == s.store && r.play == s.play
  {
    var resized := s.(rows := rows, cols := cols, grid := Blank(rows, cols), history := []);
    Focus(ClearSelection(resized), (0, 0), false).(anchor := (0, 0))
  }

  /** `createGrid` as written: it empties `tiles` and only then calls
      `clearSelection`, which looks up the tile of every selected cell. With
      a cell selected that lookup throws, after the size and the history were
      already reset and before any tile is built, so the grid is lost
      (`None`). With nothing selected it is `CreateGrid`. */
  function CreateGridAsWritten(s: Session, rows: int, cols: int): (r: Option<Session>)
    requires Valid(s) && 1 <= rows && 1 <= cols
    ensures r.None? <==> s.sel != {}
    ensures r.Some? ==> r.value == CreateGrid(s, rows, cols)
  {
    if s.sel != {} then None else Some(CreateGrid(s, rows, cols))
  }

  /** The session a page starts with when nothing was persisted:
      `branches = { main: [] }`, then `createGrid`. */
  function Init(rows: int, cols: int): (r: Session)
    requires 1 <= rows && 1 <= cols
    ensures Valid(r)
    ensures r.rows == rows && r.cols == cols && r.history == [] && r.sel == {}
    ensures Branches.States(r.store) == [] && !r.play.isPlaying
  {
    var blank := Session(rows, cols, Blank(rows, cols), (0, 0), (0, 0), {}, Idle, [],
                         Branches.Initial(), Stopped);
    CreateGrid(blank, rows, cols)
  }

  /** What `saveState` records: the grid and the cursor. */
  function EntryOf(s: Session): History.Entry {
    History.Entry(s.grid, s.cursor)
  }

  /** `saveState`: record the current grid and cursor for undo. */
  function SaveState(s: Session): (r: Session)
    requires Valid(s)
    ensures Valid(r)
    ensures r.history == History.Push(s.history, EntryOf(s))
    ensures r.(history := s.history) == s
  {
    s.(history := History.Push(s.history, EntryOf(s)))
  }

  /** The session after a saved edit that replaced the grid and the
      selection and forgot the gesture corners. */
  function Redrawn(s: Session, g: Grid, sel: set<Pos>): (r: Session)
    requires Valid(s) && IsGrid(g, s.rows, s.cols) && forall p | p in sel :: InGrid(p, s.rows, s.cols)
    ensures Valid(r) && r.rows == s.rows && r.cols == s.cols
    ensures r.grid == g && r.sel == sel && r.history == History.Push(s.history, EntryOf(s))
    ensures r.cursor == s.cursor && r.anchor == s.anchor && r.store == s.store && r.play == s.play
    ensures r.gesture == s.gesture.(selectionStart := None, selectionEnd := None)
  {
    var saved := SaveState(s);
    saved.(grid := g, sel := sel, gesture := s.gesture.(selectionStart := None, selectionEnd := None))
  }

  /** `undo`: nothing to do on an empty history; otherwise the newest entry is
      removed and its grid and cursor restored. The selection is kept. */
  function Undo(s: Session): (r: Session)
    requires Valid(s)
    ensures Valid(r)
    ensures |s.history| == 0 ==> r == s
    ensures |s.history| > 0 ==>
              && r.grid == s.history[|s.history| - 1].grid
              && r.cursor == s.history[|s.history| - 1].cursor
              && r.history == s.history[..|s.history| - 1]
              && r.(grid := s.grid, cursor := s.cursor, history := s.history) == s
  {
    if |s.history| == 0 then s
    else
      var e := s.history[|s.history| - 1];
      var restored := seq(s.rows, i requires 0 <= i < s.rows =>
                        seq(s.cols, j requires 0 <= j < s.cols => e.grid[i][j]));
      assert restored == e.grid by {
        forall i | 0 <= i < s.rows
          ensures restored[i] == e.grid[i]
        {
        }
      }
      Focus(s.(grid := restored, history := s.history[..|s.history| - 1]), e.cursor, false)
  }

  /** Any edit that saved the state and then changed only the grid and cursor
      is reverted by one undo; the history loses the entry again (and, when it
      was full, the oldest entry stays lost). */
  lemma UndoRevertsEdit(s: Session, t: Session)
    requires Valid(s) && Valid(t)
    requires t.history == History.Push(s.history, EntryOf(s))
    ensures Undo(t).grid == s.grid && Undo(t).cursor == s.cursor
    ensures |s.history| < History.MaxHistory ==> Undo(t).history == s.history
    ensures |s.history| == History.MaxHistory ==> Undo(t).history == s.history[1..]
  {
  }

  /** Row-major position of a cell, used to state cursor movement. */
  function Index(p: Pos, cols: int): int {
    p.0 * cols + p.1
  }

  lemma MulMono(a: int, b: int, c: int)
    requires a <= b && 0 <= c
    ensures a * c <= b * c
  {
    assert b * c - a * c == (b - a) * c;
  }

  /** The cell after `p` in reading order is one index further on. */
  lemma NextIndex(p: Pos, rows: int, cols: int)
    requires InGrid(p, rows, cols)
    ensures p.1 + 1 < cols ==> Index((p.0, p.1 + 1), cols) == Index(p, cols) + 1
    ensures p.1 + 1 == cols ==> Index((p.0 + 1, 0), cols) == Index(p, cols) + 1
    ensures Index(p, cols) <= rows * cols - 1
    ensures Index((rows - 1, cols - 1), cols) == rows * cols - 1
  {
    assert (p.0 + 1) * cols == p.0 * cols + cols;
    assert rows * cols == (rows - 1) * cols + cols;
    MulMono(p.0, rows - 1, cols);
  }

  /** `advanceCursor`: the next cell in reading order, wrapping to the start
      of the next row and staying on the last cell of the grid. */
  function AdvanceCursor(p: Pos, rows: int, cols: int): (q: Pos)
    requires InGrid(p, rows, cols)
    ensures InGrid(q, rows, cols)
    ensures Index(q, cols) == Min(Index(p, cols) + 1, rows * cols - 1)
  {
    NextIndex(p, rows, cols);
    var c := p.1 + 1;
    if c >= cols then
      (if p.0 + 1 >= rows then (rows - 1, cols - 1) else
         NextIndex((p.0 + 1, 0), rows, cols);
         (p.0 + 1, 0))
    else
      NextIndex((p.0, c), rows, cols);
      (p.0, c)
  }

  /** The cell before `p` in reading order, when `p` is not the first cell. */
  function Retreat(p: Pos, cols: int): (q: Pos)
    requires 0 <= p.0 && 0 <= p.1 < cols && p != (0, 0)
    ensures 0 <= q.0 && 0 <= q.1 < cols
    ensures Index(q, cols) == Index(p, cols) - 1
  {
    if p.1 > 0 then (p.0, p.1 - 1)
    else
      assert p.0 * cols == (p.0 - 1) * cols + cols;
      (p.0 - 1, cols - 1)
  }

  /** Typing a character: save, write it at the cursor, clear the selection,
      advance the cursor and move the anchor with it. */
  function Type(s: Session, ch: char): (r: Session)
    requires Valid(s)
    ensures Valid(r)
    ensures r.rows == s.rows && r.cols == s.cols
    ensures r.grid[s.cursor.0][s.cursor.1] == ch
    ensures forall i, j | InBounds(s, (i, j)) && (i, j) != s.cursor :: r.grid[i][j] == s.grid[i][j]
    ensures Index(r.cursor, s.cols) == Min(Index(s.cursor, s.cols) + 1, s.rows * s.cols - 1)
    ensures r.anchor == r.cursor && r.sel == {}
    ensures r.history == History.Push(s.history, EntryOf(s))
    ensures r.rows == s.rows && r.cols == s.cols && r.store == s.store && r.play == s.play
    ensures r.gesture == s.gesture.(selectionStart := None, selectionEnd := None)
  {
    var saved := SaveState(s);
    var written := saved.(grid := SetCell(s.grid, s.rows, s.cols, s.cursor, ch));
    Focus(ClearSelection(written), AdvanceCursor(s.cursor, s.rows, s.cols), true)
  }

  /** Backspace: save, blank the cursor cell, clear the selection, and step
      back one cell in reading order (with the anchor); at (0, 0) the cursor
      and the anchor stay. */
  function Backspace(s: Session): (r: Session)
    requires Valid(s)
    ensures Valid(r)
    ensures r.rows == s.rows && r.cols == s.cols
    ensures r.grid[s.cursor.0][s.cursor.1] == ' '
    ensures forall i, j | InBounds(s, (i, j)) && (i, j) != s.cursor :: r.grid[i][j] == s.grid[i][j]
    ensures Index(r.cursor, s.cols) == Max(Index(s.cursor, s.cols) - 1, 0)
    ensures s.cursor != (0, 0) ==> r.anchor == r.cursor
    ensures s.cursor == (0, 0) ==> r.cursor == (0, 0) && r.anchor == s.anchor
    ensures r.sel == {}
    ensures r.history == History.Push(s.history, EntryOf(s))
    ensures r.rows == s.rows && r.cols == s.cols && r.store == s.store && r.play == s.play
    ensures r.gesture == s.gesture.(selectionStart := None, selectionEnd := None)
  {
    var saved := SaveState(s);
    var cleared := ClearSelection(saved.(grid := SetCell(s.grid, s.rows, s.cols, s.cursor, ' ')));
    if s.cursor == (0, 0) then cleared
    else
      assert s.cursor.0 * s.cols >= 0 by { MulMono(0, s.cursor.0, s.cols); }
      Focus(cleared, Retreat(s.cursor, s.cols), true)
  }

  datatype Dir = Up | Down | Left | Right

  function Step(p: Pos, d: Dir): Pos {
    match d
    case Up => (p.0 - 1, p.1)
    case Down => (p.0 + 1, p.1)
    case Left => (p.0, p.1 - 1)
    case Right => (p.0, p.1 + 1)
  }

  /** The cursor moved to cell `n` by an arrow key. With Shift the
      selection becomes the rectangle from the anchor to `n`; without, the
      selection is cleared and the anchor follows. */
  function MoveCursor(s: Session, n: Pos, shift: bool): (r: Session)
    requires Valid(s) && InGrid(n, s.rows, s.cols)
    ensures Valid(r) && r.cursor == n
    ensures shift ==> r.sel == Rect(s.anchor.0, s.anchor.1, n.0, n.1) && r.anchor == s.anchor
    ensures !shift ==> r.sel == {} && r.anchor == n
    ensures r.grid == s.grid && r.history == s.history && r.store == s.store && r.play == s.play
  {
    var selected := if shift then Highlight(s, s.anchor.0, s.anchor.1, n.0, n.1)
                    else ClearSelection(s).(anchor := n);
    Focus(selected, n, false)
  }

  /** Arrow keys: move one cell when the neighbour exists, otherwise do nothing. */
  function Arrow(s: Session, d: Dir, shift: bool): (r: Session)
    requires Valid(s)
    ensures Valid(r)
    ensures !InBounds(s, Step(s.cursor, d)) ==> r == s
    ensures InBounds(s, Step(s.cursor, d)) ==>
              && r.cursor == Step(s.cursor, d)
              && (shift ==> r.sel == Rect(s.anchor.0, s.anchor.1, r.cursor.0, r.cursor.1) && r.anchor == s.anchor)
              && (!shift ==> r.sel == {} && r.anchor == r.cursor)
              && r.grid == s.grid && r.history == s.history
              && r.store == s.store && r.play == s.play
  {
    var canMove := match d
      case Up => s.cursor.0 > 0
      case Down => s.cursor.0 < s.rows - 1
      case Left => s.cursor.1 > 0
      case Right => s.cursor.1 < s.cols - 1;
    if !canMove then s else MoveCursor(s, Step(s.cursor, d), shift)
  }

  /** `clearGrid`: save, blank every cell, cursor and anchor to (0, 0). */
  function ClearGrid(s: Session): (r: Session)
    requires Valid(s)
    ensures Valid(r)
    ensures r.rows == s.rows && r.cols == s.cols
    ensures forall i, j | InBounds(s, (i, j)) :: r.grid[i][j] == ' '
    ensures r.cursor == (0, 0) && r.anchor == (0, 0) && r.sel == s.sel
    ensures r.history == History.Push(s.history, EntryOf(s))
    ensures r.(grid := s.grid, cursor := s.cursor, anchor := s.anchor, history := s.history) == s
  {
    Focus(SaveState(s).(grid := Blank(s.rows, s.cols)), (0, 0), true)
  }

  /** `cutSelection`: save, then blank each selected cell (not the whole
      bounding box); the selection stays. */
  function Cut(s: Session): (r: Session)
    requires Valid(s)
    ensures Valid(r)
    ensures r.rows == s.rows && r.cols == s.cols
    ensures forall i, j | InBounds(s, (i, j)) ::
              r.grid[i][j] == (if (i, j) in s.sel then ' ' else s.grid[i][j])
    ensures r.sel == s.sel && r.cursor == s.cursor
    ensures r.history == History.Push(s.history, EntryOf(s))
    ensures r.(grid := s.grid, history := s.history) == s
  {
    SaveState(s).(grid := Fill(s.grid, s.rows, s.cols, s.sel, ' '))
  }

  /** The Delete key: like cut, but the selection is cleared afterwards. */
  function DeleteSelection(s: Session): (r: Session)
    requires Valid(s)
    ensures Valid(r)
    ensures r.rows == s.rows && r.cols == s.cols
    ensures forall i, j | InBounds(s, (i, j)) ::
              r.grid[i][j] == (if (i, j) in s.sel then ' ' else s.grid[i][j])
    ensures r.sel == {} && r.cursor == s.cursor
    ensures r.history == History.Push(s.history, EntryOf(s))
    ensures r == s.(grid := r.grid, sel := {}, history := r.history,
                    gesture := s.gesture.(selectionStart := None, selectionEnd := None))
  {
    ClearSelection(Cut(s))
  }

  /** `saveGridState`: append the current grid, its size and the given
      timestamp to the active branch. */
  function SaveGridState(s: Session, timestamp: string): (r: Result<Session, Branches.BranchError>)
    requires Valid(s)
    ensures r.Err? <==> s.store.active !in s.store.branches
    ensures r.Ok? ==>
              && Valid(r.value)
              && Branches.States(r.value.store) ==
                   Branches.States(s.store) + [Branches.Snapshot(ToStrings(s.grid), s.rows, s.cols, timestamp)]
              && r.value.(store := s.store) == s
  {
    var sn := Branches.Snapshot(ToStrings(s.grid), s.rows, s.cols, timestamp);
    match Branches.AppendSnapshot(s.store, sn)
    case Ok(st) => Ok(s.(store := st))
    case Err(e) => Err(e)
  }

  /** A snapshot of the session's own size written into it: the state is
      saved for undo, every cell is written from the snapshot through
      `Normalize`, and the cursor goes to (0, 0). */
  function WriteSnapshot(s: Session, sn: Branches.Snapshot): (t: Session)
    requires Valid(s) && Branches.WellFormed(sn) && sn.rows == s.rows && sn.cols == s.cols
    ensures Valid(t) && t.rows == s.rows && t.cols == s.cols
    ensures forall i, j | 0 <= i < t.rows && 0 <= j < t.cols :: t.grid[i][j] == Normalize(sn.grid[i][j])
    ensures t.cursor == (0, 0)
    ensures t.history == History.Push(s.history, EntryOf(s))
    ensures t.(grid := s.grid, cursor := s.cursor, history := s.history) == s
  {
    Focus(SaveState(s).(grid := NormalizeGrid(sn.grid)), (0, 0), false)
  }

  /** The session `loadGridState` produces from a well-formed snapshot: the
      grid is recreated first if the snapshot's size differs (which empties
      the history and the selection), then the snapshot is written into it. */
  function Loaded(s: Session, sn: Branches.Snapshot): (t: Session)
    requires Valid(s) && Branches.WellFormed(sn)
    ensures Valid(t)
    ensures t.rows == sn.rows && t.cols == sn.cols
    ensures forall i, j | 0 <= i < t.rows && 0 <= j < t.cols :: t.grid[i][j] == Normalize(sn.grid[i][j])
    ensures t.cursor == (0, 0)
    ensures t.store == s.store && t.play == s.play && t.gesture.isDragging == s.gesture.isDragging
    ensures sn.rows == s.rows && sn.cols == s.cols ==>
              t.history == History.Push(s.history, EntryOf(s)) && t.sel == s.sel && t.anchor == s.anchor
    ensures sn.rows != s.rows || sn.cols != s.cols ==>
              t.history == [History.Entry(Blank(sn.rows, sn.cols), (0, 0))] && t.sel == {} && t.anchor == (0, 0)
  {
    if Resizes(s, sn) then
      var created := CreateGrid(s, sn.rows, sn.cols);
      assert History.Push([], EntryOf(created)) == [EntryOf(created)];
      WriteSnapshot(created, sn)
    else
      WriteSnapshot(s, sn)
  }

  /** `loadGridState(index)`: a missing active list or an index outside it is
      rejected before anything changes (the source throws there); otherwise
      the indexed snapshot of the active branch is loaded. */
  function LoadGridState(s: Session, index: int): (r: Result<Session, Branches.BranchError>)
    requires Valid(s)
    ensures r.Err? <==> s.store.active !in s.store.branches || !(0 <= index < |Branches.States(s.store)|)
    ensures r.Err? ==> r.error == (if s.store.active !in s.store.branches then Branches.UnknownBranch
                                   else Branches.IndexOutOfRange)
    ensures r.Ok? ==> Branches.WellFormed(Branches.States(s.store)[index])
                      && r.value == Loaded(s, Branches.States(s.store)[index])
  {
    if s.store.active !in s.store.branches then Err(Branches.UnknownBranch)
    else
      var states := s.store.branches[s.store.active];
      if !(0 <= index < |states|) then Err(Branches.IndexOutOfRange)
      else
        var sn := states[index];
        assert Branches.WellFormed(sn);
        Ok(Loaded(s, sn))
  }

  /** Why `loadGridState` as written can fail: the branch errors of
      `LoadGridState`, or a grid lost inside `createGrid`. */
  datatype LoadError = BranchFailure(reason: Branches.BranchError) | GridLost

  /** Whether loading the snapshot recreates the grid. */
  predicate Resizes(s: Session, sn: Branches.Snapshot) {
    sn.rows != s.rows || sn.cols != s.cols
  }

  /** `loadGridState(index)` as written, calling `CreateGridAsWritten`: a
      snapshot of another size loaded while a cell is selected loses the
      grid. In every other case it agrees with `LoadGridState`. */
  function LoadGridStateAsWritten(s: Session, index: int): (r: Result<Session, LoadError>)
    requires Valid(s)
    ensures r == Err(GridLost) <==>
              && LoadGridState(s, index).Ok?
              && s.sel != {} && Resizes(s, Branches.States(s.store)[index])
    ensures LoadGridState(s, index).Err? ==> r == Err(BranchFailure(LoadGridState(s, index).error))
    ensures r.Ok? ==> LoadGridState(s, index) == Ok(r.value)
  {
    if s.store.active !in s.store.branches then Err(BranchFailure(Branches.UnknownBranch))
    else
      var states := s.store.branches[s.store.active];
      if !(0 <= index < |states|) then Err(BranchFailure(Branches.IndexOutOfRange))
      else
        var sn := states[index];
        assert Branches.WellFormed(sn);
        if Resizes(s, sn) then
          match CreateGridAsWritten(s, sn.rows, sn.cols)
          case None => Err(GridLost)
          case Some(created) =>
            assert History.Push([], EntryOf(created)) == [EntryOf(created)];
            Ok(WriteSnapshot(created, sn))
        else Ok(WriteSnapshot(s, sn))
  }

  /** Saving a snapshot and loading it back restores the grid exactly. */
  lemma SaveThenLoad(s: Session, timestamp: string)
    requires Valid(s) && s.store.active in s.store.branches
    ensures SaveGridState(s, timestamp).Ok?
    ensures var t := SaveGridState(s, timestamp).value;
            var last := |Branches.States(t.store)| - 1;
            && LoadGridState(t, last).Ok?
            && LoadGridState(t, last).value.grid == s.grid
            && LoadGridState(t, last).value.history == History.Push(s.history, EntryOf(s))
  {
    var t := SaveGridState(s, timestamp).value;
    var last := |Branches.States(t.store)| - 1;
    NormalizeToStrings(s.grid);
    var u := LoadGridState(t, last).value;
    assert u.grid == s.grid by {
      forall i | 0 <= i < s.rows
        ensures u.grid[i] == s.grid[i]
      {
        assert |u.grid[i]| == |s.grid[i]|;
      }
    }
  }

  /** `deleteGridState(index)`: the active list is spliced; the grid is untouched. */
  function DeleteGridState(s: Session, index: int): (r: Result<Session, Branches.BranchError>)
    requires Valid(s)
    ensures r.Err? <==> s.store.active !in s.store.branches
    ensures r.Ok? ==>
              && Valid(r.value)
              && Branches.States(r.value.store) == Branches.Splice(Branches.States(s.store), index)
              && r.value.(store := s.store) == s
  {
    match Branches.DeleteSnapshot(s.store, index)
    case Ok(st) => Ok(s.(store := st))
    case Err(e) => Err(e)
  }
}

=== FILE: history.dfy ===
/** The undo history: whole-grid copies plus the cursor, most recent last,
    holding at most `MaxHistory` entries (the oldest is evicted first). */
module History {
  import opened Common
  import opened Cells

  /** `maxHistory`. */
  const MaxHistory: nat := 50

  /** One `saveState` record: `{ grid, row, col }`. */
  datatype Entry = Entry(grid: Grid, cursor: Pos)

  /** `saveState`'s push: the entry goes last, and once there are more than
      `MaxHistory` entries the oldest one is dropped. */
  function Push(h: seq<Entry>, e: Entry): (r: seq<Entry>)
    ensures |h| <= MaxHistory ==> |r| <= MaxHistory
    ensures |r| >= 1 && r[|r| - 1] == e
    ensures |h| < MaxHistory ==> r[..|r| - 1] == h
    ensures |h| == MaxHistory ==> r[..|r| - 1] == h[1..]
  {
    var pushed := h + [e];
    if |pushed| > MaxHistory then pushed[1..] else pushed
  }

  /** The history after pushing `es` one by one. */
  function PushAll(h: seq<Entry>, es: seq<Entry>): seq<Entry>
    decreases |es|
  {
    if |es| == 0 then h else PushAll(Push(h, es[0]), es[1..])
  }

  lemma DropDrop(xs: seq<Entry>, d: nat, k: nat)
    requires d + k <= |xs|
    ensures xs[d..][k..] == xs[d + k..]
  {
  }

  /** After any number of pushes, the history is the newest `MaxHistory`
      entries of everything pushed, in push order: the oldest ones are lost. */
  lemma {:induction false} PushAllKeepsNewest(h: seq<Entry>, es: seq<Entry>)
    requires |h| <= MaxHistory
    ensures PushAll(h, es) == (h + es)[Max(0, |h| + |es| - MaxHistory)..]
    decreases |es|
  {
    if |es| == 0 {
      assert h + es == h;
    } else {
      var h1 := Push(h, es[0]);
      var rest := es[1..];
      var d: nat := if |h| < MaxHistory then 0 else 1;
      assert h1 == (h + [es[0]])[d..];
      assert |h1| == |h| + 1 - d;
      PushAllKeepsNewest(h1, rest);
      var k: nat := Max(0, |h1| + |rest| - MaxHistory);
      var all := h + es;
      assert all == (h + [es[0]]) + rest;
      assert h1 + rest == all[d..];
      assert d + k == Max(0, |h| + |es| - MaxHistory);
      DropDrop(all, d, k);
    }
  }
}

=== FILE: keys.dfy ===
/** The `keydown` listener: one chain of tests, the first that matches
    decides what the key does. `ctrl` stands for Ctrl or Meta (the source
    tests `ctrlKey || metaKey` everywhere). */
module Keys {
  import opened Common
  import opened Cells
  import opened Editor
  import History
  import Clipboard
  import Playback

  datatype KeyEvent = KeyEvent(key: string, ctrl: bool, shift: bool)

  /** The session after the key, and the text written to the system
      clipboard, if any. */
  datatype Outcome = Outcome(session: Session, copied: Option<string>)

  /** The arrow keys by their `key` names. */
  function ArrowDir(key: string): Option<Dir> {
    if key == "ArrowUp" then Some(Up)
    else if key == "ArrowDown" then Some(Down)
    else if key == "ArrowLeft" then Some(Left)
    else if key == "ArrowRight" then Some(Right)
    else None
  }

  /** The listener, in the source's order: copy, cut, Delete with a
      selection, Escape, undo, Enter (playback, with the loop box and the
      parsed interval field), the arrows, a printable key without Ctrl, and
      Backspace. Any other key changes nothing. An arrow that cannot move
      falls through the chain, and nothing after it matches its name. */
  function KeyDown(s: Session, e: KeyEvent, loop: bool, parsed: Option<int>): (o: Outcome)
    requires Valid(s)
    ensures Valid(o.session) && o.session.store == s.store
    ensures o.copied.Some? <==> e.ctrl && (e.key == "c" || e.key == "x") && s.sel != {}
    ensures o.copied.Some? ==> o.copied.value == Clipboard.SelectionText(s)
  {
    var dir := ArrowDir(e.key);
    if e.ctrl && e.key == "c" && s.sel != {} then Outcome(s, Some(Clipboard.SelectionText(s)))
    else if e.ctrl && e.key == "x" && s.sel != {} then Outcome(Cut(s), Some(Clipboard.SelectionText(s)))
    else if e.key == "Delete" && s.sel != {} then Outcome(DeleteSelection(s), None)
    else if e.key == "Escape" then Outcome(ClearSelection(s), None)
    else if e.ctrl && e.key == "z" then Outcome(Undo(s), None)
    else if e.key == "Enter" then Outcome(Playback.Toggle(s, loop, parsed), None)
    else if dir.Some? then Outcome(Arrow(s, dir.value, e.shift), None)
    else if |e.key| == 1 && !e.ctrl then Outcome(Type(s, e.key[0]), None)
    else if e.key == "Backspace" then Outcome(Backspace(s), None)
    else Outcome(s, None)
  }

  /** Ctrl+C copies the selection's text and changes nothing; with nothing
      selected it does nothing at all (and, because of Ctrl, types nothing). */
  lemma CopyChangesNothing(s: Session, shift: bool, loop: bool, parsed: Option<int>)
    requires Valid(s)
    ensures var o := KeyDown(s, KeyEvent("c", true, shift), loop, parsed);
            && o.session == s
            && (s.sel != {} ==> o.copied == Some(Clipboard.SelectionText(s)))
            && (s.sel == {} ==> o.copied.None?)
  {
  }

  /** Ctrl+X copies the selection's text and cuts (blanks exactly the
      selected cells); Ctrl+Z then brings the grid back. */
  lemma CutThenUndo(s: Session, shift: bool, loop: bool, parsed: Option<int>)
    requires Valid(s) && s.sel != {}
    ensures var o := KeyDown(s, KeyEvent("x", true, shift), loop, parsed);
            && o.copied == Some(Clipboard.SelectionText(s))
            && o.session == Cut(s)
            && KeyDown(o.session, KeyEvent("z", true, shift), loop, parsed).session.grid == s.grid
  {
    var t := Cut(s);
    UndoRevertsEdit(s, t);
    assert KeyDown(t, KeyEvent("z", true, shift), loop, parsed).session == Undo(t);
  }

  /** A printable key without Ctrl writes itself at the cursor; Ctrl+Z then
      brings the grid and the cursor back. */
  lemma TypeThenUndo(s: Session, ch: char, shift: bool, loop: bool, parsed: Option<int>)
    requires Valid(s)
    ensures var t := KeyDown(s, KeyEvent([ch], false, shift), loop, parsed).session;
            && t.grid[s.cursor.0][s.cursor.1] == ch
            && KeyDown(t, KeyEvent("z", true, shift), loop, parsed).session.grid == s.grid
            && KeyDown(t, KeyEvent("z", true, shift), loop, parsed).session.cursor == s.cursor
  {
    var t := Type(s, ch);
    assert KeyDown(s, KeyEvent([ch], false, shift), loop, parsed).session == t;
    UndoRevertsEdit(s, t);
  }

  /** Escape clears the selection and nothing else visible: the grid, the
      cursor and the history stay. */
  lemma EscapeClears(s: Session, ctrl: bool, shift: bool, loop: bool, parsed: Option<int>)
    requires Valid(s)
    ensures var t := KeyDown(s, KeyEvent("Escape", ctrl, shift), loop, parsed).session;
            && t.sel == {}
            && t.grid == s.grid && t.cursor == s.cursor && t.history == s.history
  {
  }

  /** Delete blanks the selected cells and clears the selection; with
      nothing selected it does nothing. */
  lemma DeleteKey(s: Session, ctrl: bool, shift: bool, loop: bool, parsed: Option<int>)
    requires Valid(s)
    ensures var o := KeyDown(s, KeyEvent("Delete", ctrl, shift), loop, parsed);
            && o.copied.None?
            && (s.sel != {} ==> o.session == DeleteSelection(s))
            && (s.sel == {} ==> o.session == s)
  {
  }

  /** Enter starts or stops playback, with or without Ctrl. */
  lemma EnterKey(s: Session, ctrl: bool, shift: bool, loop: bool, parsed: Option<int>)
    requires Valid(s)
    ensures var o := KeyDown(s, KeyEvent("Enter", ctrl, shift), loop, parsed);
            o.copied.None? && o.session == Playback.Toggle(s, loop, parsed)
  {
  }

  /** An arrow key moves the cursor one step, extending the selection with
      Shift, whatever Ctrl says. */
  lemma ArrowKey(s: Session, key: string, d: Dir, ctrl: bool, shift: bool, loop: bool, parsed: Option<int>)
    requires Valid(s) && ArrowDir(key) == Some(d)
    ensures var o := KeyDown(s, KeyEvent(key, ctrl, shift), loop, parsed);
            o.copied.None? && o.session == Arrow(s, d, shift)
  {
  }

  /** Backspace blanks the cursor cell and steps back, with or without Ctrl. */
  lemma BackspaceKey(s: Session, ctrl: bool, shift: bool, loop: bool, parsed: Option<int>)
    requires Valid(s)
    ensures var o := KeyDown(s, KeyEvent("Backspace", ctrl, shift), loop, parsed);
            o.copied.None? && o.session == Backspace(s)
  {
  }
}

=== FILE: mouse.dfy ===
/** Pointer handlers: `handleMouseDown`, `handleMouseEnter`, `handleMouseUp`
    (with the drag-move of a selection) and the double-click on a tile.
    The hovered tile the source queries on mouse-up is a parameter. */
module Mouse {
  import opened Common
  import opened Cells
  import opened Selection
  import opened Editor
  import History

  /** `handleMouseDown(e, r, c)`: Ctrl/Meta toggles the cell, Shift selects
      from the anchor, a press on a selected cell starts a drag, and any other
      press starts a new selection at the cell. */
  function MouseDown(s: Session, p: Pos, ctrl: bool, shift: bool): (r: Session)
    requires Valid(s) && InBounds(s, p)
    ensures Valid(r) && r.rows == s.rows && r.cols == s.cols
    ensures r.grid == s.grid && r.history == s.history && r.store == s.store && r.play == s.play
    ensures ctrl ==> r.sel == Toggle(s.sel, p) && r.cursor == p && r.anchor == s.anchor
    ensures !ctrl && shift ==>
              r.sel == Rect(s.anchor.0, s.anchor.1, p.0, p.1) && r.cursor == p && r.anchor == s.anchor
    ensures !ctrl && !shift && p in s.sel ==>
              r == s.(gesture := s.gesture.(isDragging := true, dragStart := Some(p)))
    ensures !ctrl && !shift && p !in s.sel ==>
              && r.sel == {p} && r.cursor == p && r.anchor == p
              && r.gesture.isSelecting && r.gesture.selectionStart.None?
  {
    if ctrl then Focus(s.(sel := Toggle(s.sel, p)), p, false)
    else if shift then SelectArea(s, s.anchor.0, s.anchor.1, p.0, p.1)
    else if p in s.sel then s.(gesture := s.gesture.(isDragging := true, dragStart := Some(p)))
    else
      var started := s.(gesture := s.gesture.(isSelecting := true, selectionStart := Some(p), selectionEnd := Some(p)),
                        anchor := p);
      assert Rect(p.0, p.1, p.0, p.1) == {p};
      Focus(Highlight(started, p.0, p.1, p.0, p.1), p, false)
  }

  /** `handleMouseEnter(e, r, c)` as written: while selecting it records the
      end corner and re-highlights from `selectionStart`. When that is null
      the source throws right after recording the end corner. */
  function MouseEnter(s: Session, p: Pos): (r: Session)
    requires Valid(s) && InBounds(s, p)
    ensures Valid(r) && r.rows == s.rows && r.cols == s.cols
    ensures r.grid == s.grid && r.history == s.history && r.cursor == s.cursor
    ensures !s.gesture.isSelecting ==> r == s
    ensures s.gesture.isSelecting && s.gesture.selectionStart.None? ==>
              r == s.(gesture := s.gesture.(selectionEnd := Some(p)))
    ensures s.gesture.isSelecting && s.gesture.selectionStart.Some? ==>
              var st := s.gesture.selectionStart.value;
              r.sel == Rect(st.0, st.1, p.0, p.1)
  {
    if !s.gesture.isSelecting then s
    else
      var ended := s.(gesture := s.gesture.(selectionEnd := Some(p)));
      match s.gesture.selectionStart
      case None => ended
      case Some(st) => Highlight(ended, st.0, st.1, p.0, p.1)
  }

  /** A normal press followed by moving onto another cell, as written: the
      press's own highlight has already forgotten the start corner, so the
      selection stays the single pressed cell instead of growing to the
      rectangle between the two cells. */
  lemma DragSelectAsWrittenIgnoresDrag(s: Session, p: Pos, q: Pos)
    requires Valid(s) && InBounds(s, p) && InBounds(s, q) && p !in s.sel && p != q
    ensures MouseEnter(MouseDown(s, p, false, false), q).sel == {p}
    ensures MouseEnter(MouseDown(s, p, false, false), q).sel != Rect(p.0, p.1, q.0, q.1)
  {
    assert q in Rect(p.0, p.1, q.0, q.1);
  }

  /** A normal press that keeps the start corner of the selection gesture. */
  function MouseDownFixed(s: Session, p: Pos, ctrl: bool, shift: bool): (r: Session)
    requires Valid(s) && InBounds(s, p)
    ensures Valid(r) && r.rows == s.rows && r.cols == s.cols
    ensures r.grid == s.grid && r.history == s.history
    ensures !ctrl && !shift && p !in s.sel ==>
              && r.sel == {p} && r.cursor == p && r.anchor == p
              && r.gesture.isSelecting && r.gesture.selectionStart == Some(p)
    ensures ctrl || shift || p in s.sel ==> r == MouseDown(s, p, ctrl, shift)
  {
    var pressed := MouseDown(s, p, ctrl, shift);
    if !ctrl && !shift && p !in s.sel then
      pressed.(gesture := pressed.gesture.(selectionStart := Some(p), selectionEnd := Some(p)))
    else pressed
  }

  /** Moving onto a cell while selecting: the rectangle from the kept start
      corner to the cell, with the start corner still kept. */
  function MouseEnterFixed(s: Session, p: Pos): (r: Session)
    requires Valid(s) && InBounds(s, p)
    ensures Valid(r) && r.rows == s.rows && r.cols == s.cols
    ensures r.grid == s.grid && r.history == s.history && r.cursor == s.cursor
    ensures r.gesture.isSelecting == s.gesture.isSelecting
    ensures r.gesture.selectionStart == s.gesture.selectionStart
    ensures s.gesture.isSelecting && s.gesture.selectionStart.Some? ==>
              var st := s.gesture.selectionStart.value;
              r.sel == Rect(st.0, st.1, p.0, p.1)
    ensures !s.gesture.isSelecting ==> r == s
  {
    match s.gesture.selectionStart
    case Some(st) =>
      if s.gesture.isSelecting then
        Highlight(s, st.0, st.1, p.0, p.1).(gesture := s.gesture.(selectionEnd := Some(p)))
      else s
    case None => MouseEnter(s, p)
  }

  /** Cells in the grid of one session are in the grid of another of the same size. */
  lemma SameBounds(s: Session, t: Session, qs: seq<Pos>, all: seq<Pos>)
    requires t.rows == s.rows && t.cols == s.cols
    requires forall q | q in qs :: q in all
    requires forall q | q in all :: InBounds(s, q)
    ensures forall q | q in qs :: InBounds(t, q)
  {
    forall q | q in qs
      ensures InBounds(t, q)
    {
      assert InGrid(q, s.rows, s.cols);
    }
  }

  /** Moving through the cells `qs` in turn while selecting. */
  function EnterAll(s: Session, qs: seq<Pos>): (r: Session)
    requires Valid(s) && forall q | q in qs :: InBounds(s, q)
    ensures Valid(r) && r.rows == s.rows && r.cols == s.cols
    ensures r.grid == s.grid && r.history == s.history && r.cursor == s.cursor
    ensures r.gesture.isSelecting == s.gesture.isSelecting
    ensures r.gesture.selectionStart == s.gesture.selectionStart
    decreases |qs|
  {
    if |qs| == 0 then s
    else
      var next := MouseEnterFixed(s, qs[0]);
      SameBounds(s, next, qs[1..], qs);
      EnterAll(next, qs[1..])
  }

  /** A press on an unselected cell `p`, a drag through the cells `qs`, and
      the release: the selection is the rectangle from `p` to the last cell
      entered, whatever path the pointer took. */
  lemma {:induction false} DragSelectFixed(s: Session, p: Pos, qs: seq<Pos>)
    requires Valid(s) && InBounds(s, p) && p !in s.sel
    requires |qs| > 0 && forall q | q in qs :: InBounds(s, q)
    ensures var t0 := MouseDownFixed(s, p, false, false);
            (forall q | q in qs :: InBounds(t0, q)) &&
            EnterAll(t0, qs).sel == Rect(p.0, p.1, qs[|qs| - 1].0, qs[|qs| - 1].1)
  {
    var t0 := MouseDownFixed(s, p, false, false);
    SameBounds(s, t0, qs, qs);
    EnteringSelects(t0, p, qs);
  }

  lemma {:induction false} EnteringSelects(s: Session, p: Pos, qs: seq<Pos>)
    requires Valid(s) && s.gesture.isSelecting && s.gesture.selectionStart == Some(p)
    requires |qs| > 0 && forall q | q in qs :: InBounds(s, q)
    ensures EnterAll(s, qs).sel == Rect(p.0, p.1, qs[|qs| - 1].0, qs[|qs| - 1].1)
    decreases |qs|
  {
    var s1 := MouseEnterFixed(s, qs[0]);
    if |qs| == 1 {
      assert EnterAll(s1, qs[1..]) == s1;
    } else {
      SameBounds(s, s1, qs[1..], qs);
      EnteringSelects(s1, p, qs[1..]);
    }
  }

  /** `dblclick` on a tile: select from the anchor to the tile. */
  function DoubleClick(s: Session, p: Pos): (r: Session)
    requires Valid(s) && InBounds(s, p)
    ensures Valid(r)
    ensures r.sel == Rect(s.anchor.0, s.anchor.1, p.0, p.1) && r.cursor == p && r.anchor == s.anchor
    ensures r.grid == s.grid && r.history == s.history
  {
    SelectArea(s, s.anchor.0, s.anchor.1, p.0, p.1)
  }

  /** The cells of `b` moved by `(dr, dc)` that land inside the grid. */
  function Relocated(b: Bounds, dr: int, dc: int, rows: int, cols: int): (cells: set<Pos>)
    ensures forall p :: p in cells <==> InGrid(p, rows, cols) && Inside((p.0 - dr, p.1 - dc), b)
  {
    set r, c | b.minR + dr <= r <= b.maxR + dr && b.minC + dc <= c <= b.maxC + dc
                 && 0 <= r < rows && 0 <= c < cols :: (r, c)
  }

  /** The grid after the move: each cell the moved box lands on holds the
      box's original content there; every other cell holds a blank if it was
      selected and its old content if not. */
  function MoveBlock(g: Grid, rows: int, cols: int, sel: set<Pos>, b: Bounds, dr: int, dc: int): (m: Grid)
    requires 0 <= rows && 0 <= cols && IsGrid(g, rows, cols)
    requires 0 <= b.minR && b.maxR < rows && 0 <= b.minC && b.maxC < cols
    ensures IsGrid(m, rows, cols)
    ensures forall i, j | 0 <= i < rows && 0 <= j < cols && Inside((i - dr, j - dc), b) ::
              m[i][j] == g[i - dr][j - dc]
    ensures forall i, j | 0 <= i < rows && 0 <= j < cols && !Inside((i - dr, j - dc), b) ::
              m[i][j] == (if (i, j) in sel then ' ' else g[i][j])
  {
    var blanked := Fill(g, rows, cols, sel, ' ');
    seq(rows, i requires 0 <= i < rows =>
      seq(cols, j requires 0 <= j < cols =>
        if Inside((i - dr, j - dc), b) then g[i - dr][j - dc] else blanked[i][j]))
  }

  /** The drag-move of `handleMouseUp`, by the offset from the pressed cell
      to the released-on cell: save; copy the whole bounding box; blank only
      the selected cells; write the box at the offset, dropping cells that
      fall outside the grid; select the moved box, clipped to the grid. */
  function DragMove(s: Session, from: Pos, to: Pos): (r: Session)
    requires Valid(s) && s.sel != {}
    ensures Valid(r) && r.rows == s.rows && r.cols == s.cols
    ensures r.grid == MoveBlock(s.grid, s.rows, s.cols, s.sel, Box(s), to.0 - from.0, to.1 - from.1)
    ensures r.sel == Relocated(Box(s), to.0 - from.0, to.1 - from.1, s.rows, s.cols)
    ensures r.history == History.Push(s.history, EntryOf(s))
    ensures r.cursor == s.cursor && r.anchor == s.anchor && r.store == s.store && r.play == s.play
  {
    var moved := MoveBlock(s.grid, s.rows, s.cols, s.sel, Box(s), to.0 - from.0, to.1 - from.1);
    var target := Relocated(Box(s), to.0 - from.0, to.1 - from.1, s.rows, s.cols);
    Redrawn(s, moved, target)
  }

  /** Moving a box by no offset changes no cell when the blanked cells all
      lie inside the box. */
  lemma {:induction false} MoveBlockInPlace(g: Grid, rows: int, cols: int, sel: set<Pos>, b: Bounds)
    requires 0 <= rows && 0 <= cols && IsGrid(g, rows, cols)
    requires 0 <= b.minR && b.maxR < rows && 0 <= b.minC && b.maxC < cols
    requires forall p | p in sel :: Inside(p, b)
    ensures MoveBlock(g, rows, cols, sel, b, 0, 0) == g
  {
    var m := MoveBlock(g, rows, cols, sel, b, 0, 0);
    forall i | 0 <= i < rows
      ensures m[i] == g[i]
    {
      forall j | 0 <= j < cols
        ensures m[i][j] == g[i][j]
      {
        if !Inside((i, j), b) {
          assert (i, j) !in sel;
        }
      }
    }
  }

  /** A box of the grid moved by no offset is the whole box. */
  lemma RelocatedInPlace(b: Bounds, rows: int, cols: int)
    requires 0 <= b.minR && b.maxR < rows && 0 <= b.minC && b.maxC < cols
    ensures Relocated(b, 0, 0, rows, cols) == Region(b)
  {
    assert forall p | p in Region(b) :: p in Relocated(b, 0, 0, rows, cols);
  }

  /** Dropping a selection where it was picked up leaves every cell as it
      was and turns the selection into its full bounding box. */
  lemma DragInPlace(s: Session, p: Pos)
    requires Valid(s) && s.sel != {}
    ensures DragMove(s, p, p).grid == s.grid
    ensures DragMove(s, p, p).sel == Region(SelectionBounds(s.sel).value)
  {
    var b := Box(s);
    MoveBlockInPlace(s.grid, s.rows, s.cols, s.sel, b);
    RelocatedInPlace(b, s.rows, s.cols);
  }

  /** The flags every completed release resets. */
  function EndGesture(s: Session): (r: Session)
    requires Valid(s)
    ensures Valid(r)
    ensures !r.gesture.isSelecting && !r.gesture.isDragging && r.gesture.dragStart.None?
    ensures r.(gesture := s.gesture) == s
  {
    s.(gesture := s.gesture.(isSelecting := false, isDragging := false, dragStart := None))
  }

  /** `handleMouseUp(hovered)`: finishes a drag-move when one was started on
      the selection and a tile is hovered; always ends the drag. An empty
      selection ends only the drag, leaving `isSelecting` as it was. */
  function MouseUp(s: Session, hovered: Option<Pos>): (r: Session)
    requires Valid(s) && (hovered.Some? ==> InBounds(s, hovered.value))
    ensures Valid(r) && r.rows == s.rows && r.cols == s.cols
    ensures !r.gesture.isDragging && r.gesture.dragStart.None?
    ensures !(s.gesture.isDragging && s.gesture.dragStart.Some? && s.sel != {} && hovered.Some?) ==>
              r.grid == s.grid && r.sel == s.sel && r.history == s.history && r.cursor == s.cursor
    ensures s.gesture.isDragging && s.gesture.dragStart.Some? && s.sel != {} && hovered.Some? ==>
              var moved := DragMove(s, s.gesture.dragStart.value, hovered.value);
              r.grid == moved.grid && r.sel == moved.sel && r.history == moved.history
    ensures s.gesture.isDragging && s.gesture.dragStart.Some? && s.sel == {} ==>
              r.gesture.isSelecting == s.gesture.isSelecting
    ensures !(s.gesture.isDragging && s.gesture.dragStart.Some? && s.sel == {}) ==> !r.gesture.isSelecting
  {
    var g := s.gesture;
    if g.isDragging && g.dragStart.Some? && s.sel == {} then
      s.(gesture := g.(isDragging := false, dragStart := None))
    else if g.isDragging && g.dragStart.Some? && hovered.Some? then
      EndGesture(DragMove(s, g.dragStart.value, hovered.value))
    else EndGesture(s)
  }

  /** A release reaches `handleMouseUp` twice (from the tile and from the
      document); the second call moves nothing again. */
  lemma MouseUpTwiceMovesOnce(s: Session, hovered: Option<Pos>)
    requires Valid(s) && (hovered.Some? ==> InBounds(s, hovered.value))
    ensures var once := MouseUp(s, hovered);
            var twice := MouseUp(once, hovered);
            && twice.grid == once.grid && twice.sel == once.sel
            && twice.history == once.history && twice.cursor == once.cursor
            && !twice.gesture.isSelecting
  {
  }

  /** A one-cell page whose main branch holds a single 1 × 2 snapshot. */
  function OneCellPage(): (s: Session)
    ensures Valid(s) && s.sel == {} && s.rows == 1 && s.cols == 1
    ensures Branches.States(s.store) == [Branches.Snapshot([[" ", "x"]], 1, 2, "")]
  {
    var sn := Branches.Snapshot([[" ", "x"]], 1, 2, "");
    assert Branches.WellFormed(sn);
    Init(1, 1).(store := Branches.Store(map[Branches.Main := [sn]], Branches.Main))
  }

  /** As written: a click selects its cell, and loading the 1 × 2 snapshot
      afterwards loses the grid inside `createGrid`. */
  lemma ClickThenLoadLosesGrid()
    ensures var t := MouseDown(OneCellPage(), (0, 0), false, false);
            && t.sel == {(0, 0)}
            && LoadGridStateAsWritten(t, 0) == Err(GridLost)
  {
  }

  /** Corrected: after the same click the snapshot loads, at its own size,
      with nothing selected. */
  lemma ClickThenLoadShowsSnapshot()
    ensures var t := MouseDown(OneCellPage(), (0, 0), false, false);
            && LoadGridState(t, 0).Ok?
            && LoadGridState(t, 0).value.rows == 1 && LoadGridState(t, 0).value.cols == 2
            && LoadGridState(t, 0).value.grid == [[' ', 'x']]
            && LoadGridState(t, 0).value.sel == {}
  {
    var t := MouseDown(OneCellPage(), (0, 0), false, false);
    var u := LoadGridState(t, 0).value;
    assert Normalize("x") == 'x' && Normalize(" ") == ' ';
    assert u.grid[0] == [' ', 'x'];
  }
}

=== FILE: playback.dfy ===
/** Playback: the snapshots of the active branch are loaded one after the
    other, each after the chosen delay, optionally starting over at the end.
    The timer is not run here: `PlayState.timer` records the pending
    callback and its delay, and `Tick` is that callback firing. */
module Playback {
  import opened Common
  import opened Cells
  import opened Editor
  import Branches

  /** The delay used when the interval field does not parse (`None`) or
      parses to 0: `parseInt(value) || 500`. */
  const DefaultInterval: int := 500

  /** `parseInt(playInterval.value) || 500`. */
  function Interval(parsed: Option<int>): (ms: int)
    ensures parsed.None? ==> ms == DefaultInterval
    ensures parsed.Some? ==> ms == (if parsed.value == 0 then DefaultInterval else parsed.value)
    ensures ms != 0
  {
    match parsed
    case None => DefaultInterval
    case Some(v) => if v == 0 then DefaultInterval else v
  }

  /** `stopPlayback`: not playing, the pending callback cancelled, the index
      back to 0. Nothing else changes. */
  function Stop(s: Session): (r: Session)
    ensures r.play == Stopped
    ensures r.(play := s.play) == s
    ensures Valid(s) ==> Valid(r)
  {
    s.(play := Stopped)
  }

  /** Stopping twice is stopping once. */
  lemma StopIdempotent(s: Session)
    ensures Stop(Stop(s)) == Stop(s)
  {
  }

  /** The index never passes the end of the active list. */
  predicate IndexFits(s: Session) {
    s.play.index <= |Branches.States(s.store)|
  }

  /** The index `playNextState` loads: the current one, or 0 once past the end. */
  function LoadIndex(s: Session): nat {
    if s.play.index < |Branches.States(s.store)| then s.play.index else 0
  }

  /** Whether the snapshot at `LoadIndex` exists in the active list. */
  predicate CanLoad(s: Session) {
    s.store.active in s.store.branches && LoadIndex(s) < |Branches.States(s.store)|
  }

  /** `playNextState`: past the end of the active list, start over at 0 when
      looping, otherwise stop. Then load the snapshot at the index, advance
      the index and schedule the next call. Loading fails when the active
      branch has no list or the list is empty (the source throws there); the
      index reset has then already happened, and no callback is scheduled. */
  function PlayNext(s: Session, loop: bool, parsed: Option<int>): (r: Session)
    requires Valid(s)
    ensures Valid(r) && IndexFits(r)
    ensures r.store == s.store
    ensures s.play.index >= |Branches.States(s.store)| && !loop ==> r == Stop(s)
    ensures (s.play.index < |Branches.States(s.store)| || loop) && CanLoad(s) ==>
              && Branches.WellFormed(Branches.States(s.store)[LoadIndex(s)])
              && r.(play := s.play) == Loaded(s, Branches.States(s.store)[LoadIndex(s)])
              && r.play == PlayState(s.play.isPlaying, LoadIndex(s) + 1, Some(Interval(parsed)))
    ensures (s.play.index < |Branches.States(s.store)| || loop) && !CanLoad(s) ==>
              r == s.(play := PlayState(s.play.isPlaying, LoadIndex(s), None))
  {
    if s.play.index >= |Branches.States(s.store)| && !loop then Stop(s)
    else
      var k := LoadIndex(s);
      match LoadGridState(s, k)
      case Err(_) => s.(play := PlayState(s.play.isPlaying, k, None))
      case Ok(t) => t.(play := PlayState(s.play.isPlaying, k + 1, Some(Interval(parsed))))
  }

  /** Loading a snapshot neither reads nor changes the playback state. */
  lemma LoadIgnoresPlay(s: Session, sn: Branches.Snapshot, p: PlayState)
    requires Valid(s) && Branches.WellFormed(sn)
    ensures Loaded(s.(play := p), sn) == Loaded(s, sn).(play := p)
  {
  }

  /** `startPlayback`: nothing when the active branch has no snapshots;
      otherwise playing from index 0, and the first snapshot is loaded at once. */
  function Start(s: Session, loop: bool, parsed: Option<int>): (r: Session)
    requires Valid(s)
    ensures Valid(r)
    ensures |Branches.States(s.store)| == 0 ==> r == s
    ensures |Branches.States(s.store)| > 0 ==>
              && r.play == PlayState(true, 1, Some(Interval(parsed)))
              && r.(play := s.play) == Loaded(s, Branches.States(s.store)[0])
  {
    if |Branches.States(s.store)| == 0 then s
    else
      var playing := s.(play := PlayState(true, 0, s.play.timer));
      LoadIgnoresPlay(s, Branches.States(s.store)[0], playing.play);
      PlayNext(playing, loop, parsed)
  }

  /** `togglePlayback` (the Enter key and the Play button). */
  function Toggle(s: Session, loop: bool, parsed: Option<int>): (r: Session)
    requires Valid(s)
    ensures Valid(r) && (IndexFits(s) ==> IndexFits(r))
    ensures s.play.isPlaying ==> r == Stop(s)
    ensures !s.play.isPlaying ==> r == Start(s, loop, parsed)
  {
    if s.play.isPlaying then Stop(s) else Start(s, loop, parsed)
  }

  /** The pending callback firing; with none pending nothing happens. */
  function Tick(s: Session, loop: bool, parsed: Option<int>): (r: Session)
    requires Valid(s)
    ensures Valid(r)
    ensures s.play.timer.None? ==> r == s
    ensures s.play.timer.Some? ==> r == PlayNext(s, loop, parsed)
  {
    if s.play.timer.None? then s else PlayNext(s, loop, parsed)
  }

  /** After a stop no callback is pending, so the timer can no longer change
      the session. */
  lemma StopCancels(s: Session, loop: bool, parsed: Option<int>)
    requires Valid(s)
    ensures Tick(Stop(s), loop, parsed) == Stop(s)
  {
  }

  /** Playing without looping: with the index at `k`, the next step shows
      snapshot `k` and moves on to `k + 1`; at the end, it stops. */
  lemma PlaysInOrder(s: Session, parsed: Option<int>)
    requires Valid(s) && s.store.active in s.store.branches
    ensures var states := Branches.States(s.store);
            var r := PlayNext(s, false, parsed);
            && (s.play.index < |states| ==>
                  && r.rows == states[s.play.index].rows && r.cols == states[s.play.index].cols
                  && (forall i, j | 0 <= i < r.rows && 0 <= j < r.cols ::
                        r.grid[i][j] == Normalize(states[s.play.index].grid[i][j]))
                  && r.play.index == s.play.index + 1)
            && (s.play.index >= |states| ==> !r.play.isPlaying && r.play.timer.None?)
  {
  }

  /** Looping: at the end of a nonempty list, the next step shows the first
      snapshot again. */
  lemma LoopStartsOver(s: Session, parsed: Option<int>)
    requires Valid(s) && s.store.active in s.store.branches
    requires 0 < |Branches.States(s.store)| <= s.play.index
    ensures var first := Branches.States(s.store)[0];
            var r := PlayNext(s, true, parsed);
            && r.rows == first.rows && r.cols == first.cols
            && (forall i, j | 0 <= i < r.rows && 0 <= j < r.cols :: r.grid[i][j] == Normalize(first.grid[i][j]))
            && r.play.index == 1 && r.play.timer == Some(Interval(parsed))
  {
  }
}

=== FILE: selection.dfy ===
/** The selection model: a set of selected cells, built as an inclusive
    rectangle between two corners or by toggling single cells, and the
    bounding box the clipboard and drag-move code work from. */
module Selection {
  import opened Common

  /** An inclusive rectangle `minR..maxR × minC..maxC` (`getSelectionBounds`' result). */
  datatype Bounds = Bounds(minR: int, maxR: int, minC: int, maxC: int)

  predicate Inside(p: Pos, b: Bounds) {
    b.minR <= p.0 <= b.maxR && b.minC <= p.1 <= b.maxC
  }

  /** Every cell of the rectangle `b`. */
  function Region(b: Bounds): (cells: set<Pos>)
    ensures forall p :: p in cells <==> Inside(p, b)
  {
    set r, c | b.minR <= r <= b.maxR && b.minC <= c <= b.maxC :: (r, c)
  }

  /** The rectangle spanned by two corners given in any order. */
  function Corners(r1: int, c1: int, r2: int, c2: int): Bounds {
    Bounds(Min(r1, r2), Max(r1, r2), Min(c1, c2), Max(c1, c2))
  }

  /** The cells `highlightSelection(r1, c1, r2, c2)` selects. */
  function Rect(r1: int, c1: int, r2: int, c2: int): set<Pos> {
    Region(Corners(r1, c1, r2, c2))
  }

  /** The corner order does not matter: either diagonal, either direction. */
  lemma RectCornerOrder(r1: int, c1: int, r2: int, c2: int)
    ensures Rect(r1, c1, r2, c2) == Rect(r2, c2, r1, c1)
    ensures Rect(r1, c1, r2, c2) == Rect(r1, c2, r2, c1)
  {
  }

  /** Ctrl-click: selects `p` if it was not selected and deselects it otherwise. */
  function Toggle(sel: set<Pos>, p: Pos): (t: set<Pos>)
    ensures p in t <==> p !in sel
    ensures forall q | q != p :: q in t <==> q in sel
  {
    if p in sel then sel - {p} else sel + {p}
  }

  /** Toggling the same cell twice restores the selection. */
  lemma ToggleTwice(sel: set<Pos>, p: Pos)
    ensures Toggle(Toggle(sel, p), p) == sel
  {
  }

  function RowsOf(sel: set<Pos>): set<int> {
    set p | p in sel :: p.0
  }

  function ColsOf(sel: set<Pos>): set<int> {
    set p | p in sel :: p.1
  }

  lemma ProjectionsNonEmpty(sel: set<Pos>)
    requires sel != {}
    ensures RowsOf(sel) != {} && ColsOf(sel) != {}
  {
    var p := Pick(sel);
    assert p.0 in RowsOf(sel);
    assert p.1 in ColsOf(sel);
  }

  /** Each edge of `b` passes through some cell of `sel`. */
  predicate Touches(sel: set<Pos>, b: Bounds) {
    && (exists p | p in sel :: p.0 == b.minR)
    && (exists p | p in sel :: p.0 == b.maxR)
    && (exists p | p in sel :: p.1 == b.minC)
    && (exists p | p in sel :: p.1 == b.maxC)
  }

  /** `getSelectionBounds`: none for an empty selection, otherwise the
      smallest rectangle holding every selected cell. */
  function SelectionBounds(sel: set<Pos>): (b: Option<Bounds>)
    ensures b.None? <==> sel == {}
    ensures b.Some? ==> forall p | p in sel :: Inside(p, b.value)
    ensures b.Some? ==> Touches(sel, b.value)
  {
    if sel == {} then None
    else
      ProjectionsNonEmpty(sel);
      var rs, cs := RowsOf(sel), ColsOf(sel);
      var b := Bounds(SetMin(rs), SetMax(rs), SetMin(cs), SetMax(cs));
      assert SetMin(rs) in rs && SetMax(rs) in rs && SetMin(cs) in cs && SetMax(cs) in cs;
      assert forall p | p in sel :: p.0 in rs && p.1 in cs;
      Some(b)
  }

  /** The bounding box is the only rectangle that holds the selection and
      touches it on all four edges. */
  lemma BoundsUnique(sel: set<Pos>, b: Bounds)
    requires sel != {}
    requires forall p | p in sel :: Inside(p, b)
    requires Touches(sel, b)
    ensures SelectionBounds(sel) == Some(b)
  {
    var found := SelectionBounds(sel).value;
    var p1 :| p1 in sel && p1.0 == found.minR;
    var p2 :| p2 in sel && p2.0 == b.minR;
    assert Inside(p1, b) && Inside(p2, found);
    var p3 :| p3 in sel && p3.0 == found.maxR;
    var p4 :| p4 in sel && p4.0 == b.maxR;
    assert Inside(p3, b) && Inside(p4, found);
    var p5 :| p5 in sel && p5.1 == found.minC;
    var p6 :| p6 in sel && p6.1 == b.minC;
    assert Inside(p5, b) && Inside(p6, found);
    var p7 :| p7 in sel && p7.1 == found.maxC;
    var p8 :| p8 in sel && p8.1 == b.maxC;
    assert Inside(p7, b) && Inside(p8, found);
  }

  /** Selecting a rectangle and asking for its bounds gives back the corners,
      sorted into minimum and maximum, whatever order they came in. */
  lemma RectBounds(r1: int, c1: int, r2: int, c2: int)
    ensures SelectionBounds(Rect(r1, c1, r2, c2)) == Some(Corners(r1, c1, r2, c2))
  {
    var b := Corners(r1, c1, r2, c2);
    var sel := Rect(r1, c1, r2, c2);
    assert (b.minR, b.minC) in sel;
    assert (b.maxR, b.maxC) in sel;
    BoundsUnique(sel, b);
  }

  /** A selection lies inside its bounding box. */
  lemma BoundsCover(sel: set<Pos>)
    requires sel != {}
    ensures sel <= Region(SelectionBounds(sel).value)
  {
  }
}

=== FILE: text.dfy ===
/** Plain-text helpers the clipboard and branch code share: the white-space
    class of JavaScript regular expressions (`\s`, also used by `trim`),
    trailing-white-space removal, and joining/splitting lines at '\n'. */
module Text {

  /** The characters JavaScript's `\s` matches and `String.prototype.trim` removes
      (WhiteSpace and LineTerminator of ECMA-262). */
  predicate IsSpace(ch: char) {
    var n := ch as int;
    || n == 0x09 || n == 0x0A || n == 0x0B || n == 0x0C || n == 0x0D
    || n == 0x20 || n == 0xA0 || n == 0x1680
    || (0x2000 <= n && n <= 0x200A)
    || n == 0x2028 || n == 0x2029 || n == 0x202F || n == 0x205F
    || n == 0x3000 || n == 0xFEFF
  }

  /** `s.trim() === ''`: nothing but white space (the empty string included). */
  predicate IsBlank(s: string) {
    forall i | 0 <= i < |s| :: IsSpace(s[i])
  }

  /** `s.replace(/\s+$/, '')`: the longest prefix of `s` that does not end in
      white space. Interior white space is kept. */
  function TrimEnd(s: string): (t: string)
    ensures t <= s
    ensures forall i | |t| <= i < |s| :: IsSpace(s[i])
    ensures t == [] || !IsSpace(t[|t| - 1])
    decreases |s|
  {
    if |s| > 0 && IsSpace(s[|s| - 1]) then TrimEnd(s[..|s| - 1]) else s
  }

  /** Lines joined by a single '\n' each, with no newline after the last line. */
  function Join(lines: seq<string>): string
    decreases |lines|
  {
    if |lines| == 0 then ""
    else if |lines| == 1 then lines[0]
    else lines[0] + "\n" + Join(lines[1..])
  }

  predicate NoNewline(s: string) {
    '\n' !in s
  }

  /** The number of '\n' characters of `s`. */
  function Newlines(s: string): nat
    decreases |s|
  {
    if |s| == 0 then 0 else (if s[0] == '\n' then 1 else 0) + Newlines(s[1..])
  }

  /** `s.split('\n')`: the maximal newline-free pieces, in order; never empty. */
  function Split(s: string): (lines: seq<string>)
    ensures |lines| == Newlines(s) + 1
    ensures forall i | 0 <= i < |lines| :: NoNewline(lines[i])
    decreases |s|
  {
    if |s| == 0 then [""]
    else
      var rest := Split(s[1..]);
      if s[0] == '\n' then [""] + rest
      else [[s[0]] + rest[0]] + rest[1..]
  }

  lemma {:induction false} NewlinesAppend(a: string, b: string)
    ensures Newlines(a + b) == Newlines(a) + Newlines(b)
    decreases |a|
  {
    if |a| > 0 {
      assert (a + b)[0] == a[0];
      assert (a + b)[1..] == a[1..] + b;
      NewlinesAppend(a[1..], b);
    } else {
      assert a + b == b;
    }
  }

  lemma {:induction false} NoNewlineCount(s: string)
    requires NoNewline(s)
    ensures Newlines(s) == 0
    decreases |s|
  {
    if |s| > 0 {
      assert s[0] in s;
      assert forall i | 0 <= i < |s[1..]| :: s[1..][i] == s[i + 1];
      NoNewlineCount(s[1..]);
    }
  }

  /** Joining `k` newline-free lines produces exactly `k - 1` newlines. */
  lemma {:induction false} JoinNewlines(lines: seq<string>)
    requires |lines| >= 1
    requires forall i | 0 <= i < |lines| :: NoNewline(lines[i])
    ensures Newlines(Join(lines)) == |lines| - 1
    decreases |lines|
  {
    NoNewlineCount(lines[0]);
    if |lines| > 1 {
      JoinNewlines(lines[1..]);
      NewlinesAppend(lines[0], "\n");
      NewlinesAppend(lines[0] + "\n", Join(lines[1..]));
    }
  }

  /** Splitting a newline-free line followed by '\n' peels off exactly that line. */
  lemma {:induction false} SplitLine(line: string, rest: string)
    requires NoNewline(line)
    ensures Split(line + "\n" + rest) == [line] + Split(rest)
    decreases |line|
  {
    if |line| == 0 {
      assert line + "\n" + rest == ['\n'] + rest;
      assert (['\n'] + rest)[1..] == rest;
    } else {
      var s := line + "\n" + rest;
      assert s[0] == line[0] && s[0] != '\n';
      assert s[1..] == line[1..] + "\n" + rest;
      assert NoNewline(line[1..]) by {
        assert forall i | 0 <= i < |line[1..]| :: line[1..][i] == line[i + 1];
      }
      SplitLine(line[1..], rest);
      assert [s[0]] + line[1..] == line;
    }
  }

  /** A newline-free line splits to itself. */
  lemma {:induction false} SplitSingle(line: string)
    requires NoNewline(line)
    ensures Split(line) == [line]
    decreases |line|
  {
    if |line| > 0 {
      assert NoNewline(line[1..]) by {
        assert forall i | 0 <= i < |line[1..]| :: line[1..][i] == line[i + 1];
      }
      SplitSingle(line[1..]);
      assert [line[0]] + line[1..] == line;
    }
  }

  /** Splitting undoes joining: the lines of a joined text are the joined lines. */
  lemma {:induction false} SplitJoin(lines: seq<string>)
    requires |lines| >= 1
    requires forall i | 0 <= i < |lines| :: NoNewline(lines[i])
    ensures Split(Join(lines)) == lines
    decreases |lines|
  {
    if |lines| == 1 {
      SplitSingle(lines[0]);
    } else {
      SplitJoin(lines[1..]);
      SplitLine(lines[0], Join(lines[1..]));
      assert [lines[0]] + lines[1..] == lines;
    }
  }

  /** Joining undoes splitting: no character of the text is lost or added. */
  lemma {:induction false} JoinSplit(s: string)
    ensures Join(Split(s)) == s
    decreases |s|
  {
    if |s| > 0 {
      var rest := Split(s[1..]);
      JoinSplit(s[1..]);
      if s[0] == '\n' {
        assert Split(s) == [""] + rest;
        assert ([""] + rest)[1..] == rest;
        assert Join(Split(s)) == "" + "\n" + Join(rest);
        assert s == [s[0]] + s[1..];
      } else {
        var head := [s[0]] + rest[0];
        assert Split(s) == [head] + rest[1..];
        if |rest| == 1 {
          assert Join(Split(s)) == head;
          assert Join(rest) == rest[0];
        } else {
          assert ([head] + rest[1..])[1..] == rest[1..];
          assert Join(Split(s)) == head + "\n" + Join(rest[1..]);
          assert Join(rest) == rest[0] + "\n" + Join(rest[1..]);
        }
        assert s == [s[0]] + s[1..];
      }
    }
  }
}
